=== FILE: README.md ===
# Arbitrage bot core: AMM quotes, the two-venue solver, the market registry and pair sync

This project is a Dafny model of the core of a flash-loan arbitrage bot that
watches constant-product exchanges (UniswapV2 clones). The model covers four
parts of that core.

- **Quoting** (`AmmQuote`, `IntMath`): `getAmountOut`, `getAmountOutSimulate`
  and `getAmountIn`. These use exact integer arithmetic. A fee is a whole
  number of thousandths. BigNumber division truncates toward zero and throws
  on a zero divisor.
- **The solver** (`Arbitrage`, `LegacyUtils`, `JsNumber`, `Addresses`):
  - `tradeDirection` picks which asset to flash-borrow.
  - `calcArb` gives the profit of a round trip.
  - `findMaxBuy` recommends a sized trade.
  - The older copy of the utilities has its own ratio-based
    `tradeDirection`. It compares the ratios as JavaScript numbers, whose
    rounding `JsNumber` models.
  - `addressSortOrder` predicts a pair contract's token order.
- **The market registry** (`Registry`, which is `PairsModel`): three tables of
  factories, tokens and pairs. Each table is keyed by lower-cased address and
  keeps the schema's UNIQUE, NOT NULL and FOREIGN KEY constraints. The
  registry also answers the "common pairs" query.
- **Sync** (`ChainSync`, which is `ChainData`):
  - factory handles, keyed by folded address;
  - the set difference that finds pair indices missing from the registry;
  - registration of one pair with its tokens;
  - the worker loop over a list of indices;
  - `sync`.

  Chain reads go through a `ChainReader` value. Each of its calls may fail.

Errors that the source throws become `Err` values of a `Result`. Each
operation has a partner: an inverse, an invariant it keeps, or a reference
property, with a lemma connecting the two. The lemmas include:

- the pool invariant that makes a quote maximal;
- the product of the reserves never falling;
- the guarded repayment quote always sufficing;
- venue symmetry of the trade direction;
- agreement between the old and new direction tests;
- the registry's constraints being preserved;
- a completed sync leaving nothing absent.

## Model

| member | source | states |
|---|---|---|
| Addresses.AddressSortOrder | common/src/utils.ts:23-25 | the result is the two arguments in one order or the other, and the given order is kept exactly when the folded first address is smaller in JavaScript string order, or the two are identical |
| Addresses.AddressSortOrderSorted | common/src/utils.ts:23-25 | after sorting, the folded second address is never smaller than the folded first |
| Addresses.AddressSortOrderSymmetric | src/utils/utils.ts:6-8 | when the folded addresses differ, swapping the arguments gives the same answer |
| Addresses.HexOrder | common/src/utils.ts:23-25 | on fixed-width lower-case hex renderings, string order is numeric order (both directions) |
| Addresses.AddressSortOrderPredictsToken0 | common/src/utils.ts:23-25 | for two distinct 40-digit hex addresses in any letter case, the first address returned is the numerically smaller one, which is the one a pair contract stores as token0 |
| Addresses.Lower | src/server/models/PairsModel.ts:113-114 | folding keeps the length and maps every character through ASCII case folding, leaving all but `A` to `Z` alone |
| Addresses.LexLessFirstDifference | common/src/utils.ts:23-25 | JavaScript string order: `a` is smaller exactly when, after the longest common prefix, `a` ends or has the smaller character |
| Addresses.LexLessTotal | common/src/utils.ts:23-25 | of two different strings, one is smaller |
| Addresses.LexLessTransitive | common/src/utils.ts:23-25 | string order is transitive |
| Addresses.LowerIsLower | src/server/models/PairsModel.ts:44-56 | folding a string leaves no upper-case letter, and folding twice is folding once |
| IntMath.TruncDiv | common/src/utils.ts:37-41 | BigNumber division truncates toward zero: the magnitude of the quotient is the floor of the magnitude ratio, the sign is negative only for operands of opposite sign, and the result is the Euclidean quotient for non-negative dividends |
| AmmQuote.GetAmountOut | common/src/utils.ts:27-42 | the quote fails with an assertion error exactly when the amount or a reserve is not positive or the fee is refused by the guard; for fees up to 100% it succeeds otherwise, and the output is below the output reserve |
| AmmQuote.GetAmountOutIsMaximal | common/src/utils.ts:27-42 | the quoted output keeps the fee-weighted product of the reserves at least at its old value, and one unit more would break it |
| AmmQuote.GetAmountOutMonotone | common/src/utils.ts:27-42 | more input never buys less output |
| AmmQuote.GetAmountOutSimulate | common/src/utils.ts:44-64 | fails exactly when `getAmountOut` fails, with the same error; on success the output is the `getAmountOut` quote, the input reserve grows by the amount paid in, the output reserve shrinks by the output, and the output reserve stays positive |
| AmmQuote.SimulatePreservesProduct | common/src/utils.ts:44-64 | a simulated swap never lowers the product of the reserves |
| AmmQuote.GetAmountIn | common/src/utils.ts:66-80 | fails with an assertion error exactly on a non-positive amount or reserve or a refused fee; divides by zero exactly when the output equals the reserve or the fee is 100%; below the reserve the quote is the floor of the required input |
| AmmQuote.GetAmountInAfterOut | common/src/utils.ts:66-80 | quoting the output of a swap back through `getAmountIn` succeeds and never asks for more than was paid in |
| AmmQuote.GetAmountInGuarded | common/src/utils.ts:66-80 | the corrected quote refuses an output at or past the reserve (and a 100% fee) as insufficient liquidity, keeps the assertion errors, and is otherwise positive |
| AmmQuote.GetAmountInGuardedSuffices | common/src/utils.ts:66-80 | paying the corrected quote buys at least the requested output |
| AmmQuote.GetAmountInGuardedRoundsUp | common/src/utils.ts:76-79 | wherever the quote as written is meaningful, the corrected quote is exactly one more |
| AmmQuote.GetAmountInShortfall | common/src/utils.ts:76-79 | buying back 10 units from a 1000/1000 pool at 0.3% is quoted at 10, but 10 buys only 9; the corrected quote is 11 |
| AmmQuote.GetAmountInPastReserve | common/src/utils.ts:66-80 | an output equal to the reserve divides by zero, and a larger one is quoted at a negative input; the corrected quote refuses both |
| Arbitrage.TradeDirection | common/src/utils.ts:242-274 | any zero reserve raises insufficient liquidity; otherwise BASE, ALT or NONE is returned exactly when venue B's base-per-alt price is below, above or equal to venue A's |
| Arbitrage.TradeDirectionSwapVenues | common/src/utils.ts:242-274 | exchanging the two venues turns a BASE answer into ALT and keeps NONE |
| Arbitrage.TradeDirectionVectors | hardhat/test/helper/0_test.ts:12-49 | the solver's test reserves give ALT, BASE and NONE as the tests expect, and each zero reserve raises the liquidity error |
| Arbitrage.OrientSwapAssets | common/src/utils.ts:149-157 | the reserves of a BASE start are those of an ALT start with the two assets renamed, and a NONE start is oriented as ALT |
| Arbitrage.LoanSwapAssets | common/src/utils.ts:149-167 | whatever the sizing, the loan of a BASE start is the loan of an ALT start with the two assets renamed |
| Arbitrage.GetAmountOutBelowSpot | common/src/utils.ts:27-42 | no quote beats the pool's spot price |
| Arbitrage.CalcArb | common/src/utils.ts:82-99 | a round trip fails only with an assertion error; it succeeds exactly when the input and all four reserves are positive and the first swap yields a positive amount; its value is what the second swap returns for the first swap's output, minus the input, on the reserves oriented for the start point; it never loses more than the input |
| Arbitrage.CalcArbMirror | common/src/utils.ts:82-99 | a BASE round trip is the ALT round trip with each pool's reserves swapped, and a NONE start behaves as ALT |
| Arbitrage.CalcArbNoSpreadLoses | common/src/utils.ts:82-99 | when both venues quote the same price, every round trip loses money |
| Arbitrage.Realize | common/src/utils.ts:174-207 | a realised trade has a positive loan, and its profit is tagged ALT exactly for an unconverted BASE start; it succeeds exactly when the sale on venue B and then the repayment quote (or, for a converted BASE start, the buy-back) on venue A succeed, the guarded version also needing the loan below the borrowed reserve; the profit is the sale's proceeds minus the repayment, or the buy-back's output minus the loan; the code as written fails only with an assertion error or a division by zero, and it divides by zero exactly when the profit comes from the repayment quote, the sale succeeds, the sold-asset reserve on venue A is positive and the loan equals the borrowed reserve; every other failure is the assertion error |
| Arbitrage.RealizeConvertSaleWorthless | common/src/utils.ts:193-199 | on the convert path a sale worth nothing fails the buy-back's assertion even with the loan equal to the borrowed reserve: no division by zero there |
| Arbitrage.FindMaxBuy | common/src/utils.ts:119-240 | a direction error is passed on and a NONE direction or non-positive loan gives the empty answer; a trade is recommended exactly when the direction is BASE or ALT and the swaps at the sized loan succeed, and its profit is what those swaps realise; a failed swap assertion at any loan gives the empty answer, and a division by zero in the swaps is thrown on; any answer with a trade starts where `tradeDirection` points, borrows the sized loan and is correctly tagged; the only escaping failures are the liquidity error and a division by zero, which happens only when the loan equals the borrowed reserve |
| Arbitrage.FindMaxBuyGuarded | common/src/utils.ts:119-240 | the corrected solver fails exactly on a zero reserve; every other failure is the empty answer; a trade is recommended exactly when the guarded swaps at the sized loan succeed, with the profit they realise, and the loan is always below the reserve it is borrowed from |
| Arbitrage.FindMaxBuyConvertIsCalcArb | common/src/utils.ts:193-199 | a converted BASE-start profit is exactly the `calcArb` BASE round trip at the recommended loan |
| Arbitrage.FindMaxBuyGuardedAgrees | common/src/utils.ts:184-207 | wherever the corrected solver trades, the solver as written recommends the same loan, and its profit is one unit higher exactly when the profit comes from the repayment quote |
| Arbitrage.FindMaxBuyEqualPrices | common/src/utils.ts:133-144 | equal prices on both venues give the empty answer, whatever the sizing |
| Arbitrage.FindMaxBuyLoanAtReserve | common/src/utils.ts:184-190 | for sizings other than the square-root one, a loan equal to the borrowed reserve makes the solver throw a division by zero, and a larger one reports an inflated profit; the corrected solver answers NONE to both |
| Arbitrage.FindMaxBuyBoundedSizing | common/src/utils.ts:158-207 | for any sizing that keeps the loan below the borrowed reserve, as the square-root sizing does, the solver as written never divides by zero, fails exactly on a zero reserve, and recommends a trade exactly when the corrected solver does |
| LegacyUtils.ScaledRatio | src/utils/utils.ts:100-105 | a zero divisor is a division by zero; otherwise it succeeds exactly when `num * 10000 < 2^53 * den`, the result being the floor of `num * 10000 / den`, and the only other outcome is the `toNumber` overflow |
| LegacyUtils.LegacyTradeDirection | src/utils/utils.ts:92-116 | succeeds exactly when both scaled ratios fit in a safe integer and become different numbers once divided by 10000; `true` means venue B's scaled ratio is the smaller, `false` the larger; below 10000 * 2^39 it succeeds exactly when the scaled ratios differ; a zero first reserve divides by zero |
| LegacyUtils.NumbersOrderRatios | src/utils/utils.ts:102-113 | the numbers compare as the scaled ratios do, and below 10000 * 2^39 distinct ratios give distinct numbers |
| LegacyUtils.LegacyTradeDirectionCollides | src/utils/utils.ts:100-116 | venues with scaled ratios 5497558138880003 and 5497558138880002 are reported as having equal ratios |
| LegacyUtils.LegacyTradeDirectionSound | src/utils/utils.ts:100-116 | comparing the four-decimal floors never contradicts the exact comparison of the two reserve ratios |
| LegacyUtils.LegacyTradeDirectionEqualRatios | src/utils/utils.ts:110-116 | equal exact ratios always raise the "ratio is equal" error |
| LegacyUtils.LegacyAgreesWithTradeDirection | src/utils/utils.ts:92-116 | where the older test answers, `true` is the newer solver's ALT and `false` its BASE |
| LegacyUtils.LegacyTradeDirectionVectors | test/helper/test.ts:11-27 | the helper-test reserves give `true`, `false` and the equal-ratio error |
| JsNumber.RoundHalfEven | src/utils/utils.ts:102 | the result is an integer nearest to the argument divided by 10000, within half a unit on either side |
| JsNumber.RatioAsNumber | src/utils/utils.ts:102 | `x / 10000` as an IEEE double (scaled by 2^66): zero exactly for zero; otherwise a multiple of 2^j between 2^(52+j) and 2^(53+j), j being the binade of `x / 10000`, so a 53-bit significand; and within half a unit in the last place of the exact quotient, which fixes it uniquely |
| JsNumber.RatioAsNumberMonotone | src/utils/utils.ts:102 | rounding to a double never reverses the order of two ratios |
| JsNumber.RatioAsNumberExactBelow | src/utils/utils.ts:102 | below 10000 * 2^39, distinct ratios give distinct doubles |
| JsNumber.RatioAsNumberCollides | src/utils/utils.ts:102 | 5497558138880002 and 5497558138880003, both below 2^53, give the same double once divided by 10000 |
| Registry.EmptyStoreValid | src/server/models/PairsModel.ts:9-34 | a fresh database satisfies the schema's constraints |
| Registry.AddFactory | src/server/models/PairsModel.ts:44-56 | INSERT OR IGNORE: a row that clashes with a stored address, name or router changes nothing; otherwise exactly one row is added, under the folded address and with both addresses folded; the other tables are untouched and the constraints are kept |
| Registry.AddFactoryThenGet | src/server/models/PairsModel.ts:58-68 | an added factory is found under any spelling of its address and is listed among all factories |
| Registry.GetFactory | src/server/models/PairsModel.ts:58-62 | in a valid registry, a row is found exactly when some stored factory has the folded address, and it is that row |
| Registry.GetFactories | src/server/models/PairsModel.ts:64-68 | every stored factory is listed, and each listed row is the one stored under its own address |
| Registry.GetFactoriesAgreesWithGet | src/server/models/PairsModel.ts:58-68 | a row is listed exactly when looking up its address finds it |
| Registry.AddToken | src/server/models/PairsModel.ts:70-85 | the token table gains the folded address and nothing else; a stored row is never overwritten; a new row has `is_base` unset; the constraints are kept |
| Registry.AddTokenIdempotent | src/server/models/PairsModel.ts:70-85 | adding a token a second time, under any spelling, changes nothing |
| Registry.AddTokenThenGet | src/server/models/PairsModel.ts:113-124 | after `addToken`, the token is found under any spelling of its address and listed under the folded one; a token that was already there keeps its row |
| Registry.GetTokenFromAddress | src/server/models/PairsModel.ts:113-118 | in a valid registry, a row is found exactly when some stored token has the folded address, and it is that row |
| Registry.GetTokenAddressList | src/server/models/PairsModel.ts:120-124 | in a valid registry, the list is the address column of the tokens table; each entry is lower case and looking it up finds its own row |
| Registry.AddPair | src/server/models/PairsModel.ts:87-111 | a missing index violates NOT NULL and a stored address violates UNIQUE; the insert succeeds exactly when the index is given, the address is new and the factory and both tokens are stored; on success exactly one folded row is added and the constraints are kept |
| Registry.AddPairThenGet | src/server/models/PairsModel.ts:126-138 | after `addPair`, the pair is found under any spelling of its address, and its factory's index list gains exactly that pair |
| Registry.GetPairFromAddress | src/server/models/PairsModel.ts:126-131 | in a valid registry, a row is found exactly when some stored pair has the folded address, and it is that row |
| Registry.GetPairIndexAddressList | src/server/models/PairsModel.ts:133-138 | the list holds exactly the (address, index) of every pair stored for the folded factory address |
| Registry.CommonPairs | src/server/models/PairsModel.ts:140-168 | every group is a set of stored rows sharing the group's token slug, has at least two rows and contains a base-token row; every row whose slug has more than one base-token row lands in its group |
| Registry.GetCommonPairs | src/server/models/PairsModel.ts:140-168 | every group holds stored pairs sharing the group's slug, at least two of them, one with a token flagged `is_base`; every stored pair whose slug has more than one base-token row is in its group |
| Registry.CommonPairsDisjoint | src/server/models/PairsModel.ts:140-168 | a row belongs to one group at most |
| Registry.CommonPairsCountsRows | src/server/models/PairsModel.ts:150-152 | two pairs of the same tokens under a single factory already form a group |
| ChainSync.DifferenceSet | server/src/chain_interface/ChainData.ts:12-15 | the result holds exactly the elements of the first collection not in the second, without repetition when the first has none, and is empty when everything is excluded |
| ChainSync.Range | server/src/chain_interface/ChainData.ts:91-92 | the indices 0 to n-1, each once, in order |
| ChainSync.RegisterNewFactory | server/src/chain_interface/ChainData.ts:40-46 | the handle is stored under the folded address; the registry gets the INSERT OR IGNORE factory row, so re-registering a known factory leaves it unchanged |
| ChainSync.RegisterNewFactoryPreserves | server/src/chain_interface/ChainData.ts:40-46 | every handle stays filed under its folded address, and the registry's constraints are kept |
| ChainSync.ReloadFactory | server/src/chain_interface/ChainData.ts:34-46 | re-registering a stored factory files a handle under its address and leaves the registry unchanged, since the insert is ignored |
| ChainSync.LoadAllFactories | server/src/chain_interface/ChainData.ts:32-38 | returns every stored factory, leaves the registry unchanged, and adds a handle for each stored factory while other handles stay as they were |
| ChainSync.RegisterTokenIfNotExist | server/src/chain_interface/ChainData.ts:48-55 | a known token needs no read and changes nothing; a completed call leaves the token stored; a failed read changes nothing; the only row that can be added is the named token's, and the constraints are kept |
| ChainSync.RegisterKnownTokenReadsNothing | server/src/chain_interface/ChainData.ts:48-50 | for a known token the outcome does not depend on the chain at all |
| ChainSync.RegisterPairTokens | server/src/chain_interface/ChainData.ts:66-67 | completes exactly when each token is known or can be read; both are then stored; no token rows other than the pair's two can be added; the only failure is a failed read |
| ChainSync.InsertPair | server/src/chain_interface/ChainData.ts:71-81 | when the call completes, the pair's folded address is stored and the pair table holds at most that one new key; a duplicate pair is swallowed as success with the registry unchanged; every other constraint violation is thrown on and leaves the registry as it was |
| ChainSync.RegisterPairFromFactoryIndex | server/src/chain_interface/ChainData.ts:57-82 | an unregistered factory fails with "factory not found" and changes nothing, and a duplicate pair never surfaces as an error |
| ChainSync.RegisterPairPreserves | server/src/chain_interface/ChainData.ts:57-82 | a registration only adds token and pair rows and keeps the registry's constraints |
| ChainSync.RegisterPairNewRow | server/src/chain_interface/ChainData.ts:62-72 | the only pair row a registration can add is for the pair the factory reports at that index, tagged with the index and the folded factory address |
| ChainSync.RegisterPairDone | server/src/chain_interface/ChainData.ts:57-82 | a completed registration leaves the pair and both its tokens stored, and a pair that was already stored is not rewritten |
| ChainSync.RegisterPairInserts | server/src/chain_interface/ChainData.ts:57-82 | when every read succeeds and the pair is new, the registration completes and adds exactly that pair's row |
| ChainSync.StoredIndices | server/src/chain_interface/ChainData.ts:85-87 | an index is stored for a factory exactly when some stored pair of that folded factory carries it |
| ChainSync.GetAbsentPairsInFactory | server/src/chain_interface/ChainData.ts:84-96 | corrected index computation (the code as written is GetAbsentPairsInFactoryAsWritten): "factory not found" exactly for an unregistered factory, and otherwise only a failed read; on success the list has no repeats and holds exactly the indices below the factory's pair count that the registry lacks |
| ChainSync.GetAbsentPairsInFactoryAsWritten | server/src/chain_interface/ChainData.ts:91-92 | as written, an answer can only ever contain index 0 |
| ChainSync.AbsentPairsAsWrittenMissesIndices | server/src/chain_interface/ChainData.ts:91-92 | for a factory reporting three pairs and an empty registry, the code as written finds only index 0 |
| ChainSync.AbsentPairsSampleComplete | server/src/chain_interface/ChainData.ts:84-96 | for the same factory, the corrected computation finds indices 0, 1 and 2 |
| ChainSync.Fold | server/src/chain_interface/ChainData.ts:109-118 | the count of completed attempts never exceeds the number of indices |
| ChainSync.FoldUniform | server/src/chain_interface/ChainData.ts:109-118 | every index is counted when every attempt completes, none when none does, and attempts that never write leave the registry as it was |
| ChainSync.RegisterAll | server/src/chain_interface/ChainData.ts:98-128 | at most one completed registration per index |
| ChainSync.RegisterAllWithoutFactory | server/src/chain_interface/ChainData.ts:57-60 | for a factory without a handle every index fails, nothing is counted and nothing is written |
| ChainSync.RegisterAllPreserves | server/src/chain_interface/ChainData.ts:98-128 | the worker loop only adds rows and keeps the registry's constraints |
| ChainSync.RegisterAllAppend | server/src/chain_interface/ChainData.ts:98-128 | running the loop over two lists in turn is running it over their concatenation, with the counts added |
| ChainSync.RegisterPairFromFactoryIndexArray | server/src/chain_interface/ChainData.ts:98-128 | the loop's registry and count are those of registering the indices one by one, catching each failure, and counting only completed registrations |
| ChainSync.Sync | server/src/chain_interface/ChainData.ts:130-133 | with the corrected index computation: fails exactly when finding the absent indices fails, with the same error; otherwise only adds rows and completes at most one registration per absent index |
| ChainSync.RegisterAllInserts | server/src/chain_interface/ChainData.ts:98-128 | when every read succeeds and the pairs are new, the loop registers every index, tagged with its index and factory, and counts them all |
| ChainSync.SyncCompletes | server/src/chain_interface/ChainData.ts:84-133 | when every read succeeds, a sync registers every absent index; afterwards no index is absent, and a second sync completes with nothing to do |

## Left out

- `executionPrice` (both copies) is left out. It divides with `divUnsafe` into a fixed-point decimal, and the rest of the core never uses it.
- The square-root loan sizing of `findMaxBuy` (common/src/utils.ts:158-167) is a function parameter. It uses floating-point and BigNumberJS arithmetic rounded to 20 decimal places, so every property above is stated for an arbitrary sizing. With fee factor f, writing s for `sqrt(A0 B1)`, the sizing is `(f sqrt(B0 A1) - s) s / (f (f B0 + A0))`; over all s this is at most `f B0 A1 / (4 (f B0 + A0))`, below a quarter of A1. The rounding to a whole loan therefore stays below the borrowed reserve A1. That bound is argued here, not proved; FindMaxBuyBoundedSizing states what follows from it.
- `tradeDirection` compares the two prices by exact cross-multiplication, where the source divides with BigNumberJS, which rounds each quotient to 20 decimal places. Prices that differ only beyond the 20th decimal place can therefore compare differently in the source.
- The older `tradeDirection` divides each scaled ratio by 10000 as an IEEE double before comparing. JsNumber models that division with round-to-nearest-even on a 53-bit significand; subnormals and infinities cannot arise from integers below 2^53, so they are not modelled.
- The older copy's `addressSortOrder`, `getAmountOut` and `getAmountIn` are the same code as the newer copy, and they are modelled once.
- `getPairTicker` (src/server/models/PairsModel.ts:170-186) is left out. It is a display helper that no part of the core depends on.
- The schema text, the database connection and the `factories` getter are left out. The model keeps the constraints the schema imposes.
- The chain classes (`FactoryAccount`, `PairAccount`, `TokenAccount` and the RPC provider) are replaced by the `ChainReader` value: each call either returns a value or fails. `getPairFromIndex` is an empty stub in the source, so its answer is taken as given.
- The pair row records the factory it was read from. `PairAccount.get` never sets the factory address, so as written `addPair` would fail when it folds the missing address.
- The server's `registerNewFactory` calls a two-argument `addFactory`. The model forwards the router and fee to the four-column table of src/server/models/PairsModel.ts, the registry used throughout.
- The 100 concurrent workers of `registerPairFromFactoryIndexArray` are modelled as one worker that takes the indices in order. Logging is left out.
- ChainSync.RegisterPairFromFactoryIndex: the function's own contract states only the two facts above. What it writes is stated by RegisterPairPreserves, RegisterPairNewRow, RegisterPairDone and RegisterPairInserts.
- AmmQuote.FeeAccepted: fees are whole thousandths. The source's guard `fee >= 0.001 || fee === 0` (common/src/utils.ts:34, 50, 73) accepts any real fee. A fee that is not a whole number of thousandths, such as 0.0025, passes the guard and then makes `amountIn.mul(1000 - fee * 1000)` throw inside BigNumber; that error path is not modelled. The solver's 0.003 is exactly 3 thousandths and is unaffected.
- Case folding is ASCII only. Addresses are hex strings.
- Integers are unbounded, as BigNumber is. The only fixed widths modelled are the 2^53 limit of `toNumber` and the double division in the older `tradeDirection`.
- Arbitrage.TradeDirection, Arbitrage.FindMaxBuy and LegacyUtils.LegacyTradeDirection take reserves as natural numbers. On chain they are unsigned, so no negative reserve can reach them; how the source would treat a negative BigNumber is not modelled.

## Findings

| source | as written | input that shows it | evidently intended | confidence | as-written member | corrected member |
|---|---|---|---|---|---|---|
| common/src/utils.ts:66-80 | `getAmountIn` accepts an output at or above the output reserve. At the reserve, the BigNumber division throws; above it, the required input is negative. This reaches callers of `getAmountIn` that pass an arbitrary output. Inside `findMaxBuy` the square-root sizing keeps the loan below a quarter of the reserve, so there it only matters for a different sizing (FindMaxBuyLoanAtReserve, FindMaxBuyBoundedSizing). | `getAmountIn(1000, 1000, 1000, 0.003)` divides by zero; `getAmountIn(2000, 1000, 1000, 0.003)` is -2006 | refuse the output as insufficient liquidity | not executed | AmmQuote.GetAmountInPastReserve | AmmQuote.GetAmountInGuarded |
| common/src/utils.ts:76-79 | `getAmountIn` rounds the required input down. Paying the quote can buy less than the requested output, so the flash loan is repaid short. | `getAmountIn(10, 1000, 1000, 0.003)` is 10, and `getAmountOut(10, 1000, 1000, 0.003)` is 9 | add 1 after the division, as the UniswapV2 library does | not executed | AmmQuote.GetAmountInShortfall | AmmQuote.GetAmountInGuarded, AmmQuote.GetAmountInGuardedSuffices, Arbitrage.FindMaxBuyGuarded |
| server/src/chain_interface/ChainData.ts:91-92 | `Array(totalPairs)` receives the BigNumber object that `getTotalPairCount` returns, not a number. That builds a one-element array, so only index 0 is ever considered absent. | a factory reporting 3 pairs, with none stored: only index 0 is found | the indices 0 to count-1 not yet stored | not executed | ChainSync.AbsentPairsAsWrittenMissesIndices, ChainSync.GetAbsentPairsInFactoryAsWritten | ChainSync.GetAbsentPairsInFactory, ChainSync.SyncCompletes |

=== FILE: addresses.dfy ===
/** Account addresses as strings: case folding, the string ordering of
    JavaScript's `<`, and `addressSortOrder`, which predicts how a pair
    contract orders its two tokens. */
module Addresses {

  import IntMath

  /** ASCII case folding. Addresses are hex strings, so only `A`..`Z`
      ever need folding. */
  function LowerChar(c: char): (r: char)
    ensures 'A' <= c <= 'Z' ==> 'a' <= r <= 'z' && r as int - c as int == 32
    ensures !('A' <= c <= 'Z') ==> r == c
  {
    if 'A' <= c <= 'Z' then (c as int + 32) as char else c
  }

  /** `String.prototype.toLowerCase` restricted to ASCII letters. */
  function Lower(s: string): (r: string)
    ensures |r| == |s|
    ensures forall i :: 0 <= i < |s| ==> r[i] == LowerChar(s[i])
  {
    if s == [] then [] else [LowerChar(s[0])] + Lower(s[1..])
  }

  /** A string that folding leaves alone, as every stored address is. */
  predicate IsLower(s: string)
  {
    forall i :: 0 <= i < |s| ==> !('A' <= s[i] <= 'Z')
  }

  lemma LowerIsLower(s: string)
    ensures IsLower(Lower(s))
    ensures Lower(Lower(s)) == Lower(s)
  {
  }

  lemma LowerFixesLower(s: string)
    requires IsLower(s)
    ensures Lower(s) == s
  {
  }

  /** JavaScript's `a < b` on strings: lexicographic, a proper prefix
      being smaller. JavaScript compares UTF-16 code units and `char` here
      is a Unicode scalar value; the two orders agree on the ASCII strings
      that addresses are. */
  predicate LexLess(a: string, b: string)
    decreases |a|
  {
    if |a| == 0 then |b| > 0
    else if |b| == 0 then false
    else if a[0] != b[0] then a[0] < b[0]
    else LexLess(a[1..], b[1..])
  }

  /** The order stated directly: `a` is smaller exactly when, after
      their longest common prefix, `a` ends or has the smaller character. */
  lemma {:induction false} LexLessFirstDifference(a: string, b: string)
    ensures LexLess(a, b) <==>
      exists i :: 0 <= i <= |a| && i < |b| && a[..i] == b[..i] && (i == |a| || a[i] < b[i])
    decreases |a|
  {
    if |a| == 0 || |b| == 0 {
      assert a[..0] == b[..0];
    } else if a[0] != b[0] {
      assert a[..0] == b[..0];
      forall i | 0 < i <= |a| && i < |b|
        ensures a[..i][0] == a[0] && b[..i][0] == b[0]
      {
      }
    } else {
      var a', b' := a[1..], b[1..];
      LexLessFirstDifference(a', b');
      forall j | 0 <= j <= |a'| && j < |b'| && a'[..j] == b'[..j] && (j == |a'| || a'[j] < b'[j])
        ensures a[..j + 1] == b[..j + 1] && (j + 1 == |a| || a[j + 1] < b[j + 1])
      {
        assert a[..j + 1] == [a[0]] + a'[..j];
        assert b[..j + 1] == [b[0]] + b'[..j];
      }
      forall i | 0 < i <= |a| && i < |b| && a[..i] == b[..i] && (i == |a| || a[i] < b[i])
        ensures a'[..i - 1] == b'[..i - 1] && (i - 1 == |a'| || a'[i - 1] < b'[i - 1])
      {
        assert a'[..i - 1] == a[..i][1..];
        assert b'[..i - 1] == b[..i][1..];
      }
    }
  }

  lemma {:induction false} LexLessIrreflexive(a: string)
    ensures !LexLess(a, a)
    decreases |a|
  {
    if |a| > 0 {
      LexLessIrreflexive(a[1..]);
    }
  }

  lemma {:induction false} LexLessAsymmetric(a: string, b: string)
    requires LexLess(a, b)
    ensures !LexLess(b, a)
    decreases |a|
  {
    if |a| > 0 && |b| > 0 && a[0] == b[0] {
      LexLessAsymmetric(a[1..], b[1..]);
    }
  }

  lemma {:induction false} LexLessTransitive(a: string, b: string, c: string)
    requires LexLess(a, b) && LexLess(b, c)
    ensures LexLess(a, c)
    decreases |a|
  {
    if |a| > 0 && a[0] == b[0] && b[0] == c[0] {
      LexLessTransitive(a[1..], b[1..], c[1..]);
    }
  }

  /** Any two different strings are ordered one way or the other. */
  lemma {:induction false} LexLessTotal(a: string, b: string)
    requires a != b
    ensures LexLess(a, b) || LexLess(b, a)
    decreases |a|
  {
    if |a| > 0 && |b| > 0 && a[0] == b[0] {
      assert a == [a[0]] + a[1..] && b == [b[0]] + b[1..];
      LexLessTotal(a[1..], b[1..]);
    }
  }

  /** A shared prefix does not change the order. */
  lemma {:induction false} LexLessCommonPrefix(p: string, a: string, b: string)
    ensures LexLess(p + a, p + b) <==> LexLess(a, b)
    decreases |p|
  {
    if |p| > 0 {
      assert (p + a)[0] == (p + b)[0];
      assert (p + a)[1..] == p[1..] + a;
      assert (p + b)[1..] == p[1..] + b;
      LexLessCommonPrefix(p[1..], a, b);
    } else {
      assert p + a == a && p + b == b;
    }
  }

  /** `addressSortOrder(a, b)`: the two addresses, the one whose folded
      form is smaller first; ties keep the second argument first. */
  function AddressSortOrder(a: string, b: string): (r: (string, string))
    ensures r == (a, b) || r == (b, a)
    ensures r == (a, b) <==> LexLess(Lower(a), Lower(b)) || (a == b)
  {
    if LexLess(Lower(a), Lower(b)) then (a, b) else (b, a)
  }

  /** The first address never folds to something larger than the second. */
  lemma AddressSortOrderSorted(a: string, b: string)
    ensures var r := AddressSortOrder(a, b); !LexLess(Lower(r.1), Lower(r.0))
  {
    if LexLess(Lower(a), Lower(b)) {
      LexLessAsymmetric(Lower(a), Lower(b));
    }
  }

  /** The argument order does not matter once the folded forms differ. */
  lemma AddressSortOrderSymmetric(a: string, b: string)
    requires Lower(a) != Lower(b)
    ensures AddressSortOrder(a, b) == AddressSortOrder(b, a)
  {
    LexLessTotal(Lower(a), Lower(b));
    if LexLess(Lower(a), Lower(b)) {
      LexLessAsymmetric(Lower(a), Lower(b));
    }
  }

  // ---------------------------------------------------------------------
  // Lower-case hex renderings of 160-bit account numbers, and the on-chain
  // token ordering of a constant-product pair contract.

  function Pow16(n: nat): (r: nat)
    ensures r >= 1
  {
    if n == 0 then 1 else 16 * Pow16(n - 1)
  }

  function HexDigit(d: nat): (c: char)
    requires d < 16
    ensures '0' <= c <= '9' || 'a' <= c <= 'f'
  {
    if d < 10 then ('0' as int + d) as char else ('a' as int + d - 10) as char
  }

  lemma HexDigitOrder(d: nat, e: nat)
    requires d < 16 && e < 16
    ensures HexDigit(d) < HexDigit(e) <==> d < e
    ensures HexDigit(d) == HexDigit(e) <==> d == e
  {
  }

  /** The `n`-digit big-endian lower-case hex rendering of `v`. */
  function Hex(v: nat, n: nat): (s: string)
    requires v < Pow16(n)
    ensures |s| == n
    ensures IsLower(s)
  {
    if n == 0 then [] else Hex(v / 16, n - 1) + [HexDigit(v % 16)]
  }

  /** Appending one character to strings of equal length. */
  lemma {:induction false} LexLessSnoc(x: string, y: string, c: char, d: char)
    requires |x| == |y|
    ensures LexLess(x + [c], y + [d]) <==> LexLess(x, y) || (x == y && c < d)
    decreases |x|
  {
    if |x| > 0 {
      assert (x + [c])[1..] == x[1..] + [c];
      assert (y + [d])[1..] == y[1..] + [d];
      LexLessSnoc(x[1..], y[1..], c, d);
      if x[0] == y[0] {
        assert x == [x[0]] + x[1..] && y == [y[0]] + y[1..];
      }
    }
  }

  /** On fixed-width hex renderings the string order is the numeric order. */
  lemma {:induction false} HexOrder(v: nat, u: nat, n: nat)
    requires v < Pow16(n) && u < Pow16(n)
    ensures LexLess(Hex(v, n), Hex(u, n)) <==> v < u
  {
    if n > 0 {
      var hv, hu := Hex(v / 16, n - 1), Hex(u / 16, n - 1);
      HexOrder(v / 16, u / 16, n - 1);
      LexLessSnoc(hv, hu, HexDigit(v % 16), HexDigit(u % 16));
      HexDigitOrder(v % 16, u % 16);
      if v / 16 < u / 16 {
        LexLessIrreflexive(hv);
      } else if u / 16 < v / 16 {
        LexLessIrreflexive(hu);
        HexOrder(u / 16, v / 16, n - 1);
      }
    }
  }

  /** An address as written: `0x` followed by 40 hex digits in any case. */
  predicate Renders(s: string, v: nat)
  {
    v < Pow16(40) && Lower(s) == "0x" + Hex(v, 40)
  }

  /** `UniswapV2Factory.createPair` stores the numerically smaller token
      address as `token0`. */
  function OnChainToken0(a: nat, b: nat): nat
  {
    if a < b then a else b
  }

  /** `addressSortOrder` predicts the token order a pair contract uses. */
  lemma AddressSortOrderPredictsToken0(s: string, t: string, a: nat, b: nat)
    requires Renders(s, a) && Renders(t, b) && a != b
    ensures var r := AddressSortOrder(s, t);
      (OnChainToken0(a, b) == a ==> r == (s, t)) &&
      (OnChainToken0(a, b) == b ==> r == (t, s))
  {
    LexLessCommonPrefix("0x", Hex(a, 40), Hex(b, 40));
    HexOrder(a, b, 40);
  }
}

=== FILE: amm_quote.dfy ===
/** Constant-product quotes with the fee taken from the input leg, in
    exact integer arithmetic (`getAmountOut`, `getAmountOutSimulate`,
    `getAmountIn` of the solver utilities).

    A fee is an integer number of thousandths: the source multiplies by
    `1000 - fee * 1000`, so 0.003 becomes 3. */
module AmmQuote {

  import opened Outcomes
  import opened IntMath

  /** How the source's quoting and direction helpers fail. */
  datatype QuoteError =
    | InvalidArgument        // a failed `assert`: an AssertionError
    | DivisionByZero         // BigNumber division by zero
    | InsufficientLiquidity  // an explicit liquidity check
    | RatiosEqual            // the legacy direction test saw equal ratios
    | NumericOverflow        // BigNumber.toNumber beyond 53 bits

  /** Thousandths in one whole. */
  const FEE_SCALE: int := 1000

  /** The fee guard `fee >= 0.001 || fee === 0`. It has no upper bound. */
  predicate FeeAccepted(fee: int)
  {
    fee >= 1 || fee == 0
  }

  /** The fees a factory can carry: a fraction in [0, 1). */
  predicate FeeInDomain(fee: int)
  {
    0 <= fee < FEE_SCALE
  }

  /** The three assertions shared by every quote. */
  predicate QuoteArgsOk(amount: int, reserveIn: int, reserveOut: int, fee: int)
  {
    amount > 0 && reserveIn > 0 && reserveOut > 0 && FeeAccepted(fee)
  }

  /** `getAmountOut`: the largest output the pool can pay for `amountIn`. */
  function GetAmountOut(amountIn: int, reserveIn: int, reserveOut: int, fee: int): (r: Result<int, QuoteError>)
    ensures !QuoteArgsOk(amountIn, reserveIn, reserveOut, fee) <==> r == Err(InvalidArgument)
    ensures fee <= FEE_SCALE ==> (r.Ok? <==> QuoteArgsOk(amountIn, reserveIn, reserveOut, fee))
    ensures r.Ok? && fee <= FEE_SCALE ==> 0 <= r.value < reserveOut
  {
    if amountIn <= 0 || reserveIn <= 0 || reserveOut <= 0 || !FeeAccepted(fee) then
      Err(InvalidArgument)
    else
      var amountInWithFee := amountIn * (FEE_SCALE - fee);
      var numerator := amountInWithFee * reserveOut;
      var denominator := reserveIn * FEE_SCALE + amountInWithFee;
      if denominator == 0 then Err(DivisionByZero)
      else
        OutputBelowReserve(amountInWithFee, reserveIn * FEE_SCALE, reserveOut);
        Ok(TruncDiv(numerator, denominator))
  }

  lemma OutputBelowReserve(w: int, s: int, reserveOut: int)
    ensures w >= 0 && s > 0 && reserveOut > 0 ==> 0 <= (w * reserveOut) / (s + w) < reserveOut
  {
    if w < 0 || s <= 0 || reserveOut <= 0 {
      return;
    }
    MulStrict(w, s + w, reserveOut);
    assert w * reserveOut < reserveOut * (s + w);
    DivLtFromMul(reserveOut, w * reserveOut, s + w);
  }

  /** The quote as the pool's invariant states it: paying `out` keeps
      `(1000 * reserveIn + amountIn * (1000 - fee)) * (reserveOut - out)`
      at least `1000 * reserveIn * reserveOut`, and `out + 1` would not. */
  lemma {:induction false} GetAmountOutIsMaximal(amountIn: int, reserveIn: int, reserveOut: int, fee: int)
    requires QuoteArgsOk(amountIn, reserveIn, reserveOut, fee) && fee <= FEE_SCALE
    ensures var out := GetAmountOut(amountIn, reserveIn, reserveOut, fee).value;
      var scaledIn := reserveIn * FEE_SCALE + amountIn * (FEE_SCALE - fee);
      && scaledIn * (reserveOut - out) >= reserveIn * FEE_SCALE * reserveOut
      && scaledIn * (reserveOut - (out + 1)) < reserveIn * FEE_SCALE * reserveOut
  {
    var w := amountIn * (FEE_SCALE - fee);
    var s := reserveIn * FEE_SCALE;
    var n := w * reserveOut;
    var d := s + w;
    var out := n / d;
    assert GetAmountOut(amountIn, reserveIn, reserveOut, fee).value == out;
    DivBounds(n, d);
    assert d * (reserveOut - out) == d * reserveOut - out * d;
    assert d * (reserveOut - (out + 1)) == d * reserveOut - (out + 1) * d;
    assert d * reserveOut - n == s * reserveOut;
  }

  /** More input never buys less output. */
  lemma GetAmountOutMonotone(a: int, b: int, reserveIn: int, reserveOut: int, fee: int)
    requires QuoteArgsOk(a, reserveIn, reserveOut, fee) && fee <= FEE_SCALE
    requires a <= b
    ensures GetAmountOut(a, reserveIn, reserveOut, fee).value <= GetAmountOut(b, reserveIn, reserveOut, fee).value
  {
    var w := FEE_SCALE - fee;
    var s := reserveIn * FEE_SCALE;
    var wa, wb := a * w, b * w;
    MulLeft(a, b, w);
    assert wa <= wb;
    // wa * R * (s + wb) <= wb * R * (s + wa)  <==>  wa * s <= wb * s
    MulLeft(wa, wb, s * reserveOut);
    assert (wa * reserveOut) * (s + wb) == wa * wb * reserveOut + s * reserveOut * wa;
    assert (wb * reserveOut) * (s + wa) == wa * wb * reserveOut + s * reserveOut * wb;
    DivMonotoneCross(wa * reserveOut, s + wa, wb * reserveOut, s + wb);
  }

  /** `getAmountOutSimulate`: the quote together with the reserves the pool
      would hold after the swap. */
  datatype Simulation = Simulation(amountOut: int, reserveIn: int, reserveOut: int)

  function GetAmountOutSimulate(amountIn: int, reserveIn: int, reserveOut: int, fee: int): (r: Result<Simulation, QuoteError>)
    ensures r.Ok? <==> GetAmountOut(amountIn, reserveIn, reserveOut, fee).Ok?
    ensures r.Err? ==> r.error == GetAmountOut(amountIn, reserveIn, reserveOut, fee).error
    ensures r.Ok? ==>
      && r.value.amountOut == GetAmountOut(amountIn, reserveIn, reserveOut, fee).value
      && r.value.reserveIn - reserveIn == amountIn
      && r.value.reserveOut + r.value.amountOut == reserveOut
    ensures r.Ok? && fee <= FEE_SCALE ==> 0 < r.value.reserveOut <= reserveOut
  {
    if amountIn <= 0 || reserveIn <= 0 || reserveOut <= 0 || !FeeAccepted(fee) then
      Err(InvalidArgument)
    else
      var amountInWithFee := amountIn * (FEE_SCALE - fee);
      var numerator := amountInWithFee * reserveOut;
      var denominator := reserveIn * FEE_SCALE + amountInWithFee;
      if denominator == 0 then Err(DivisionByZero)
      else
        var amountOut := TruncDiv(numerator, denominator);
        Ok(Simulation(amountOut, reserveIn + amountIn, reserveOut - amountOut))
  }

  /** A simulated swap never lowers the product of the reserves. */
  lemma SimulatePreservesProduct(amountIn: int, reserveIn: int, reserveOut: int, fee: int)
    requires GetAmountOutSimulate(amountIn, reserveIn, reserveOut, fee).Ok?
    requires FeeInDomain(fee)
    ensures var sim := GetAmountOutSimulate(amountIn, reserveIn, reserveOut, fee).value;
      sim.reserveIn * sim.reserveOut >= reserveIn * reserveOut
  {
    var sim := GetAmountOutSimulate(amountIn, reserveIn, reserveOut, fee).value;
    GetAmountOutIsMaximal(amountIn, reserveIn, reserveOut, fee);
    assert sim.reserveOut == reserveOut - GetAmountOut(amountIn, reserveIn, reserveOut, fee).value;
    var w := amountIn * (FEE_SCALE - fee);
    MulLeft(FEE_SCALE - fee, FEE_SCALE, amountIn);
    ProductArith(reserveIn, reserveOut, amountIn, w, sim.reserveOut);
  }

  /** The arithmetic behind it: the fee-weighted product bounds the plain
      one, since the fee only shrinks the input. */
  lemma ProductArith(reserveIn: int, reserveOut: int, a: int, w: int, left: int)
    requires reserveIn > 0 && a > 0 && 0 <= w <= a * FEE_SCALE && left > 0
    requires (reserveIn * FEE_SCALE + w) * left >= reserveIn * FEE_SCALE * reserveOut
    ensures (reserveIn + a) * left >= reserveIn * reserveOut
  {
    MulLeft(reserveIn * FEE_SCALE + w, (reserveIn + a) * FEE_SCALE, left);
    assert FEE_SCALE * ((reserveIn + a) * left) >= FEE_SCALE * (reserveIn * reserveOut);
  }

  /** `getAmountIn` as written: no `+ 1` after the division, and nothing
      stops `amountOut` from reaching `reserveOut`, where the divisor is
      zero (a thrown division error) or negative (a negative quote). */
  function GetAmountIn(amountOut: int, reserveIn: int, reserveOut: int, fee: int): (r: Result<int, QuoteError>)
    ensures !QuoteArgsOk(amountOut, reserveIn, reserveOut, fee) <==> r == Err(InvalidArgument)
    ensures QuoteArgsOk(amountOut, reserveIn, reserveOut, fee) ==>
      (r == Err(DivisionByZero) <==> amountOut == reserveOut || fee == FEE_SCALE)
    ensures r.Ok? && amountOut < reserveOut && fee < FEE_SCALE ==>
      var owed := (reserveOut - amountOut) * (FEE_SCALE - fee);
      && r.value >= 0
      && r.value * owed <= reserveIn * amountOut * FEE_SCALE < (r.value + 1) * owed
  {
    if amountOut <= 0 || reserveIn <= 0 || reserveOut <= 0 || !FeeAccepted(fee) then
      Err(InvalidArgument)
    else
      var numerator := reserveIn * amountOut * FEE_SCALE;
      var denominator := (reserveOut - amountOut) * (FEE_SCALE - fee);
      MulSign(reserveOut - amountOut, FEE_SCALE - fee);
      MulSign(reserveIn, amountOut);
      if denominator == 0 then Err(DivisionByZero)
      else
        DivBoundsWhenPositive(numerator, denominator);
        Ok(TruncDiv(numerator, denominator))
  }

  /** Quoting the output of a swap back through `getAmountIn` never asks
      for more than was paid in. */
  lemma GetAmountInAfterOut(x: int, reserveIn: int, reserveOut: int, fee: int)
    requires QuoteArgsOk(x, reserveIn, reserveOut, fee) && fee <= FEE_SCALE
    requires GetAmountOut(x, reserveIn, reserveOut, fee).value > 0
    ensures var out := GetAmountOut(x, reserveIn, reserveOut, fee).value;
      GetAmountIn(out, reserveIn, reserveOut, fee).Ok? &&
      GetAmountIn(out, reserveIn, reserveOut, fee).value <= x
  {
    var out := GetAmountOut(x, reserveIn, reserveOut, fee).value;
    var w := FEE_SCALE - fee;
    var s := reserveIn * FEE_SCALE;
    assert w > 0;
    GetAmountOutIsMaximal(x, reserveIn, reserveOut, fee);
    // (s + x*w) * (R - out) >= s * R  gives  s * out <= x * w * (R - out)
    assert (s + x * w) * (reserveOut - out) == s * reserveOut - s * out + x * w * (reserveOut - out);
    assert s * out <= x * ((reserveOut - out) * w);
    MulSign(reserveOut - out, w);
    DivLeFromMul(x, s * out, (reserveOut - out) * w);
    assert reserveIn * out * FEE_SCALE == s * out;
  }

  /** `getAmountIn` with the guards its callers need: an output the pool
      cannot pay is refused, and the quote is rounded up as the
      UniswapV2 library does, so it always buys at least `amountOut`. */
  function GetAmountInGuarded(amountOut: int, reserveIn: int, reserveOut: int, fee: int): (r: Result<int, QuoteError>)
    ensures !QuoteArgsOk(amountOut, reserveIn, reserveOut, fee) <==> r == Err(InvalidArgument)
    ensures QuoteArgsOk(amountOut, reserveIn, reserveOut, fee) ==>
      (r == Err(InsufficientLiquidity) <==> amountOut >= reserveOut || fee >= FEE_SCALE)
    ensures r.Ok? ==> r.value > 0
  {
    if amountOut <= 0 || reserveIn <= 0 || reserveOut <= 0 || !FeeAccepted(fee) then
      Err(InvalidArgument)
    else if amountOut >= reserveOut || fee >= FEE_SCALE then
      Err(InsufficientLiquidity)
    else
      var numerator := reserveIn * amountOut * FEE_SCALE;
      var denominator := (reserveOut - amountOut) * (FEE_SCALE - fee);
      Ok(numerator / denominator + 1)
  }

  /** Paying the guarded quote buys at least the requested output. */
  lemma GetAmountInGuardedSuffices(amountOut: int, reserveIn: int, reserveOut: int, fee: int)
    requires GetAmountInGuarded(amountOut, reserveIn, reserveOut, fee).Ok?
    ensures var paid := GetAmountInGuarded(amountOut, reserveIn, reserveOut, fee).value;
      GetAmountOut(paid, reserveIn, reserveOut, fee).Ok? &&
      GetAmountOut(paid, reserveIn, reserveOut, fee).value >= amountOut
  {
    var paid := GetAmountInGuarded(amountOut, reserveIn, reserveOut, fee).value;
    var w := FEE_SCALE - fee;
    var s := reserveIn * FEE_SCALE;
    assert s * amountOut == reserveIn * amountOut * FEE_SCALE;
    assert paid == (s * amountOut) / ((reserveOut - amountOut) * w) + 1;
    RoundedUpQuoteSuffices(amountOut, s, reserveOut, w, paid);
    MulSign(paid, w);
    MulSign(paid * w, reserveOut);
    assert GetAmountOut(paid, reserveIn, reserveOut, fee).value == (paid * w * reserveOut) / (s + paid * w);
  }

  /** The arithmetic behind it: one more than the floor of
      `s * a / ((R - a) * w)` buys `a` from reserves `s / 1000` and `R`. */
  lemma RoundedUpQuoteSuffices(a: int, s: int, reserveOut: int, w: int, paid: int)
    requires 0 < a < reserveOut && s > 0 && w > 0
    requires paid == (s * a) / ((reserveOut - a) * w) + 1
    ensures (paid * w * reserveOut) / (s + paid * w) >= a
  {
    var owed := (reserveOut - a) * w;
    MulSign(reserveOut - a, w);
    MulSign(s, a);
    DivBounds(s * a, owed);
    assert paid * owed > s * a;
    var pw := paid * w;
    assert paid * owed == pw * (reserveOut - a);
    assert pw * reserveOut - a * (s + pw) == pw * (reserveOut - a) - s * a;
    MulSign(paid, w);
    LeDivFromMul(a, pw * reserveOut, s + pw);
  }

  /** The two quotes differ exactly by the missing `+ 1` wherever the
      unguarded one is meaningful. */
  lemma GetAmountInGuardedRoundsUp(amountOut: int, reserveIn: int, reserveOut: int, fee: int)
    requires QuoteArgsOk(amountOut, reserveIn, reserveOut, fee)
    requires amountOut < reserveOut && fee < FEE_SCALE
    ensures GetAmountIn(amountOut, reserveIn, reserveOut, fee).Ok?
    ensures GetAmountInGuarded(amountOut, reserveIn, reserveOut, fee) ==
      Ok(GetAmountIn(amountOut, reserveIn, reserveOut, fee).value + 1)
  {
    var numerator := reserveIn * amountOut * FEE_SCALE;
    var denominator := (reserveOut - amountOut) * (FEE_SCALE - fee);
    assert numerator >= 0 && denominator > 0;
  }

  /** Finding: the unguarded quote can be one unit short. Buying back 10
      units from a 1000/1000 pool at 0.3% is quoted at 10, which buys 9. */
  lemma GetAmountInShortfall()
    ensures GetAmountIn(10, 1000, 1000, 3) == Ok(10)
    ensures GetAmountOut(10, 1000, 1000, 3) == Ok(9)
    ensures GetAmountInGuarded(10, 1000, 1000, 3) == Ok(11)
  {
  }

  /** Finding: nothing stops the requested output from reaching the
      reserve. Equal to it, the division throws; above it, the "required
      input" is negative. */
  lemma GetAmountInPastReserve()
    ensures GetAmountIn(1000, 1000, 1000, 3) == Err(DivisionByZero)
    ensures GetAmountIn(2000, 1000, 1000, 3) == Ok(-2006)
    ensures GetAmountInGuarded(1000, 1000, 1000, 3) == Err(InsufficientLiquidity)
    ensures GetAmountInGuarded(2000, 1000, 1000, 3) == Err(InsufficientLiquidity)
  {
  }
}

=== FILE: arbitrage.dfy ===
/** The two-venue arbitrage solver: which asset to flash-borrow
    (`tradeDirection`), the profit of a round trip of a given size
    (`calcArb`), and the sized trade recommendation (`findMaxBuy`). */
module Arbitrage {

  import opened Outcomes
  import opened IntMath
  import opened AmmQuote

  /** The role of an asset in a trade: `StartPoint` and `Quantity.asset`
      of the source share these three values. */
  datatype StartPoint = BASE | ALT | NONE

  datatype Quantity = Quantity(asset: StartPoint, quantity: int)

  datatype TradeDetails = TradeDetails(startPoint: StartPoint, initialLoan: Quantity, expectedProfit: Quantity)

  /** "No actionable trade": both quantities are zero and untagged. */
  const NoTrade: TradeDetails := TradeDetails(NONE, Quantity(NONE, 0), Quantity(NONE, 0))

  /** Every swap leg of `calcArb` and `findMaxBuy` uses a 0.3% fee,
      whatever fee the factories are registered with. */
  const SWAP_FEE: int := 3

  /** The square-root sizing step of `findMaxBuy`, given the reordered
      reserves `(A0, A1, B0, B1)` where `A1`/`B1` hold the borrowed asset. */
  type Sizing = (nat, nat, nat, nat) -> int

  /** `n1 / d1 < n2 / d2` for positive denominators, exactly. */
  predicate RatioLess(n1: int, d1: int, n2: int, d2: int)
  {
    n1 * d2 < n2 * d1
  }

  /** `tradeDirection`: compares the pooled price
      `(A_base + B_base) / (A_alt + B_alt)` with venue A's own price
      `A_base / A_alt`. Borrow BASE when the pooled price is lower. */
  function TradeDirection(aBase: nat, aAlt: nat, bBase: nat, bAlt: nat): (r: Result<StartPoint, QuoteError>)
    ensures r.Err? <==> aBase == 0 || aAlt == 0 || bBase == 0 || bAlt == 0
    ensures r.Err? ==> r.error == InsufficientLiquidity
    ensures r == Ok(BASE) <==> r.Ok? && bBase * aAlt < aBase * bAlt
    ensures r == Ok(ALT) <==> r.Ok? && bBase * aAlt > aBase * bAlt
    ensures r == Ok(NONE) <==> r.Ok? && bBase * aAlt == aBase * bAlt
  {
    if aBase == 0 || aAlt == 0 || bBase == 0 || bAlt == 0 then
      Err(InsufficientLiquidity)
    else if RatioLess(aBase + bBase, aAlt + bAlt, aBase, aAlt) then
      Ok(BASE)
    else if RatioLess(aBase, aAlt, aBase + bBase, aAlt + bAlt) then
      Ok(ALT)
    else
      Ok(NONE)
  }

  /** Exchanging the roles of the two venues exchanges BASE and ALT. */
  lemma TradeDirectionSwapVenues(aBase: nat, aAlt: nat, bBase: nat, bAlt: nat)
    ensures TradeDirection(aBase, aAlt, bBase, bAlt) == Ok(BASE) <==> TradeDirection(bBase, bAlt, aBase, aAlt) == Ok(ALT)
    ensures TradeDirection(aBase, aAlt, bBase, bAlt) == Ok(NONE) <==> TradeDirection(bBase, bAlt, aBase, aAlt) == Ok(NONE)
  {
  }

  /** The helper tests of the solver, in wei (1000 ether and so on). */
  lemma TradeDirectionVectors()
    ensures TradeDirection(1000_000000000000000000, 1000_000000000000000000, 1000_000000000000000000, 950_000000000000000000) == Ok(ALT)
    ensures TradeDirection(1000_000000000000000000, 1000_000000000000000000, 1000_000000000000000000, 10000_000000000000000000) == Ok(BASE)
    ensures TradeDirection(1000_000000000000000000, 1000_000000000000000000, 1000_000000000000000000, 1000_000000000000000000) == Ok(NONE)
    ensures TradeDirection(0, 1000, 1000, 950) == Err(InsufficientLiquidity)
    ensures TradeDirection(1000, 0, 1000, 950) == Err(InsufficientLiquidity)
    ensures TradeDirection(1000, 1000, 0, 950) == Err(InsufficientLiquidity)
    ensures TradeDirection(1000, 1000, 1000, 0) == Err(InsufficientLiquidity)
  {
  }

  /** The reserves reordered as `(A0, A1, B0, B1)`, index 1 holding the
      asset that is borrowed: BASE for a BASE start, ALT otherwise. */
  function Orient(sp: StartPoint, aBase: nat, aAlt: nat, bBase: nat, bAlt: nat): (o: (nat, nat, nat, nat))
    ensures sp == BASE ==> o.1 == aBase && o.3 == bBase && o.0 == aAlt && o.2 == bAlt
    ensures sp != BASE ==> o.1 == aAlt && o.3 == bAlt && o.0 == aBase && o.2 == bBase
  {
    if sp == BASE then (aAlt, aBase, bAlt, bBase) else (aBase, aAlt, bBase, bAlt)
  }

  /** A quote never beats the pool's spot price `reserveOut / reserveIn`. */
  lemma GetAmountOutBelowSpot(amountIn: int, reserveIn: int, reserveOut: int, fee: int)
    requires QuoteArgsOk(amountIn, reserveIn, reserveOut, fee) && fee <= FEE_SCALE
    ensures GetAmountOut(amountIn, reserveIn, reserveOut, fee).value * reserveIn < amountIn * reserveOut
  {
    GetAmountOutIsMaximal(amountIn, reserveIn, reserveOut, fee);
    BelowSpotArith(amountIn, reserveIn, reserveOut, FEE_SCALE - fee, GetAmountOut(amountIn, reserveIn, reserveOut, fee).value);
  }

  /** The arithmetic behind it: an output that keeps the fee-weighted
      product is below the spot price of the input. */
  lemma BelowSpotArith(a: int, reserveIn: int, reserveOut: int, w: int, out: int)
    requires a > 0 && reserveIn > 0 && reserveOut > 0 && 0 <= w <= FEE_SCALE && 0 <= out < reserveOut
    requires (reserveIn * FEE_SCALE + a * w) * (reserveOut - out) >= reserveIn * FEE_SCALE * reserveOut
    ensures out * reserveIn < a * reserveOut
  {
    // (1000 rIn + a w)(rOut - out) >= 1000 rIn rOut  gives  1000 rIn out <= a w (rOut - out)
    assert (reserveIn * FEE_SCALE + a * w) * (reserveOut - out)
      == reserveIn * FEE_SCALE * reserveOut - FEE_SCALE * (out * reserveIn) + a * w * (reserveOut - out);
    MulLeft(w, FEE_SCALE, a);
    MulLeft(a * w, a * FEE_SCALE, reserveOut - out);
    if out > 0 {
      MulStrict(reserveOut - out, reserveOut, a * FEE_SCALE);
    } else {
      MulSign(a, reserveOut);
    }
  }

  /** `calcArb`: borrow `inputAmount` of the start asset, sell it on venue
      B, buy it back on venue A, and report what is left over. A NONE
      start is treated like ALT. */
  function CalcArb(inputAmount: int, sp: StartPoint, reserveAX: int, reserveAY: int, reserveBX: int, reserveBY: int): (r: Result<int, QuoteError>)
    ensures r.Err? ==> r.error == InvalidArgument
    ensures r.Ok? ==> inputAmount > 0 && r.value >= -inputAmount
    ensures var (aX, aY, bX, bY) := if sp == BASE then (reserveAY, reserveAX, reserveBY, reserveBX)
                                    else (reserveAX, reserveAY, reserveBX, reserveBY);
      && (r.Ok? <==>
            && inputAmount > 0 && aX > 0 && aY > 0 && bX > 0 && bY > 0
            && GetAmountOut(inputAmount, bY, bX, SWAP_FEE).value > 0)
      && (r.Ok? ==>
            r.value == GetAmountOut(GetAmountOut(inputAmount, bY, bX, SWAP_FEE).value, aX, aY, SWAP_FEE).value - inputAmount)
  {
    var (aX, aY, bX, bY) := if sp == BASE then (reserveAY, reserveAX, reserveBY, reserveBX)
                            else (reserveAX, reserveAY, reserveBX, reserveBY);
    var temp :- GetAmountOut(inputAmount, bY, bX, SWAP_FEE);
    var out :- GetAmountOut(temp, aX, aY, SWAP_FEE);
    Ok(out - inputAmount)
  }

  /** A BASE round trip is the ALT round trip with each pool's reserves
      swapped; NONE is the ALT round trip itself. */
  lemma CalcArbMirror(x: int, ax: int, ay: int, bx: int, bY: int)
    ensures CalcArb(x, BASE, ax, ay, bx, bY) == CalcArb(x, ALT, ay, ax, bY, bx)
    ensures CalcArb(x, NONE, ax, ay, bx, bY) == CalcArb(x, ALT, ax, ay, bx, bY)
  {
  }

  /** Without a price difference between the venues every round trip
      loses money. */
  lemma CalcArbNoSpreadLoses(x: int, sp: StartPoint, ax: int, ay: int, bx: int, bY: int)
    requires ax * bY == ay * bx
    requires CalcArb(x, sp, ax, ay, bx, bY).Ok?
    ensures CalcArb(x, sp, ax, ay, bx, bY).value < 0
  {
    var (rax, ray, rbx, rby) := if sp == BASE then (ay, ax, bY, bx) else (ax, ay, bx, bY);
    assert rax * rby == ray * rbx;
    var temp := GetAmountOut(x, rby, rbx, SWAP_FEE).value;
    var out := GetAmountOut(temp, rax, ray, SWAP_FEE).value;
    GetAmountOutBelowSpot(x, rby, rbx, SWAP_FEE);
    GetAmountOutBelowSpot(temp, rax, ray, SWAP_FEE);
    TwoHopsBelowPar(out, temp, x, rax, ray, rbx, rby);
  }

  /** Two trades each below par, at prices that cancel, end below par. */
  lemma TwoHopsBelowPar(out: int, temp: int, x: int, rax: int, ray: int, rbx: int, rby: int)
    requires rax > 0 && ray > 0 && rbx > 0 && rby > 0
    requires out * rax < temp * ray
    requires temp * rby < x * rbx
    requires rax * rby == ray * rbx
    ensures out < x
  {
    MulStrict(out * rax, temp * ray, rby);
    MulStrict(temp * rby, x * rbx, ray);
    assert rby * (out * rax) == out * (rax * rby);
    assert rby * (temp * ray) == ray * (temp * rby);
    assert ray * (x * rbx) == x * (ray * rbx);
    assert out * (rax * rby) < x * (rax * rby);
    MulSign(rax, rby);
    if out >= x {
      MulLeft(x, out, rax * rby);
    }
  }

  /** The flash-loan repayment quote: `getAmountIn` as written, or the
      guarded quote. */
  function Repay(loan: int, a0: int, a1: int, guarded: bool): Result<int, QuoteError>
  {
    if guarded then GetAmountInGuarded(loan, a0, a1, SWAP_FEE) else GetAmountIn(loan, a0, a1, SWAP_FEE)
  }

  /** Steps 4 and 5 of `findMaxBuy`: sell the loan on venue B, then either
      quote the repayment on venue A (profit in the other asset) or, for a
      BASE start converted to BASE, buy the loan asset back on venue A.
      In guarded mode a loan that is not below the borrowed reserve on
      venue A fails before any quote. */
  function Realize(sp: StartPoint, loan: int, a0: nat, a1: nat, b0: nat, b1: nat, convert: bool, guarded: bool): (r: Result<Quantity, QuoteError>)
    ensures r.Ok? ==> loan > 0
    ensures r.Ok? ==> r.value.asset == (if sp != ALT && !convert then ALT else BASE)
    ensures guarded && r.Ok? ==> loan < a1
    ensures guarded && r.Err? ==> r.error == InvalidArgument || r.error == InsufficientLiquidity
    ensures !guarded && r.Err? ==> r.error == InvalidArgument || r.error == DivisionByZero
    ensures !guarded && r == Err(DivisionByZero) ==> loan == a1
    ensures var sold := GetAmountOut(loan, b1, b0, SWAP_FEE);
      var repaid := sp == ALT || !convert;
      && (r.Ok? <==>
            && (!guarded || loan < a1)
            && sold.Ok?
            && (if repaid then Repay(loan, a0, a1, guarded).Ok?
                else GetAmountOut(sold.value, a0, a1, SWAP_FEE).Ok?))
      && (r.Ok? && repaid ==> r.value.quantity == sold.value - Repay(loan, a0, a1, guarded).value)
      && (r.Ok? && !repaid ==> r.value.quantity == GetAmountOut(sold.value, a0, a1, SWAP_FEE).value - loan)
      && (!guarded && repaid && a0 > 0 && sold.Ok? ==> (r == Err(DivisionByZero) <==> loan == a1))
      && (!guarded ==> (r == Err(DivisionByZero) <==> repaid && a0 > 0 && sold.Ok? && loan == a1))
  {
    var _ :- if guarded && loan >= a1 then Err(InsufficientLiquidity) else Ok(());
    var midstep :- GetAmountOut(loan, b1, b0, SWAP_FEE);
    if sp == ALT || !convert then
      var repay :- Repay(loan, a0, a1, guarded);
      Ok(Quantity(if sp == ALT then BASE else ALT, midstep - repay))
    else
      var out :- GetAmountOut(midstep, a0, a1, SWAP_FEE);
      Ok(Quantity(BASE, out - loan))
  }

  /** The loan size `findMaxBuy` asks for once the direction is known. */
  function Loan(sp: StartPoint, aBase: nat, aAlt: nat, bBase: nat, bAlt: nat, sizing: Sizing): (l: int)
    ensures sp == BASE ==> l == sizing(aAlt, aBase, bAlt, bBase)
    ensures sp != BASE ==> l == sizing(aBase, aAlt, bBase, bAlt)
  {
    var o := Orient(sp, aBase, aAlt, bBase, bAlt);
    sizing(o.0, o.1, o.2, o.3)
  }

  /** Only the repayment quote can divide by zero: on the convert path a
      sale worth nothing fails the buy-back's assertion even when the loan
      equals the borrowed reserve. */
  lemma RealizeConvertSaleWorthless()
    ensures GetAmountOut(1000, 1000000, 1, SWAP_FEE) == Ok(0)
    ensures Realize(BASE, 1000, 1000, 1000, 1, 1000000, true, false) == Err(InvalidArgument)
  {
  }

  /** A BASE start is an ALT start with the two assets renamed. */
  lemma OrientSwapAssets(aBase: nat, aAlt: nat, bBase: nat, bAlt: nat)
    ensures Orient(BASE, aBase, aAlt, bBase, bAlt) == Orient(ALT, aAlt, aBase, bAlt, bBase)
    ensures Orient(NONE, aBase, aAlt, bBase, bAlt) == Orient(ALT, aBase, aAlt, bBase, bAlt)
  {
  }

  /** So the loan of a BASE start is that of an ALT start on the renamed
      reserves, whatever the sizing. */
  lemma LoanSwapAssets(aBase: nat, aAlt: nat, bBase: nat, bAlt: nat, sizing: Sizing)
    ensures Loan(BASE, aBase, aAlt, bBase, bAlt, sizing) == Loan(ALT, aAlt, aBase, bAlt, bBase, sizing)
  {
    OrientSwapAssets(aBase, aAlt, bBase, bAlt);
  }

  /** The reserve of the borrowed asset on venue A. */
  function Borrowable(sp: StartPoint, aBase: nat, aAlt: nat): nat
  {
    if sp == BASE then aBase else aAlt
  }

  /** The shape every answer of `findMaxBuy` has: a NONE answer carries
      zero quantities; otherwise the loan is positive and tagged with the
      start asset, and the profit is in ALT exactly for a BASE start whose
      profit is not converted. */
  predicate WellTagged(t: TradeDetails, convert: bool)
  {
    if t.startPoint == NONE then t == NoTrade
    else
      && t.initialLoan.asset == t.startPoint
      && t.initialLoan.quantity > 0
      && t.expectedProfit.asset == (if t.startPoint == BASE && !convert then ALT else BASE)
  }

  /** `findMaxBuy` as written. A failed assertion in the swap steps turns
      into a NONE answer; a division by zero is thrown on. */
  function FindMaxBuy(aBase: nat, aAlt: nat, bBase: nat, bAlt: nat, convert: bool, sizing: Sizing): (r: Result<TradeDetails, QuoteError>)
    ensures var dir := TradeDirection(aBase, aAlt, bBase, bAlt);
      && (dir.Err? ==> r == Err(dir.error))
      && (dir == Ok(NONE) ==> r == Ok(NoTrade))
      && (dir.Ok? && dir.value != NONE && Loan(dir.value, aBase, aAlt, bBase, bAlt, sizing) <= 0 ==> r == Ok(NoTrade))
      && (r.Ok? ==> WellTagged(r.value, convert))
      && (r.Ok? && r.value.startPoint != NONE ==>
            && dir == Ok(r.value.startPoint)
            && r.value.initialLoan.quantity == Loan(dir.value, aBase, aAlt, bBase, bAlt, sizing))
      && (r == Err(DivisionByZero) ==>
            dir.Ok? && Loan(dir.value, aBase, aAlt, bBase, bAlt, sizing) == Borrowable(dir.value, aBase, aAlt))
      && (r.Err? ==> r.error == InsufficientLiquidity || r.error == DivisionByZero)
      && (dir.Ok? && dir.value != NONE ==>
            var o := Orient(dir.value, aBase, aAlt, bBase, bAlt);
            var attempt := Realize(dir.value, Loan(dir.value, aBase, aAlt, bBase, bAlt, sizing), o.0, o.1, o.2, o.3, convert, false);
            && (r.Ok? && r.value.startPoint != NONE <==> attempt.Ok?)
            && (attempt.Ok? ==> r.value.expectedProfit == attempt.value)
            && (attempt == Err(InvalidArgument) ==> r == Ok(NoTrade))
            && (attempt == Err(DivisionByZero) ==> r == Err(DivisionByZero)))
  {
    var sp :- TradeDirection(aBase, aAlt, bBase, bAlt);
    if sp == NONE then Ok(NoTrade)
    else
      var o := Orient(sp, aBase, aAlt, bBase, bAlt);
      var loan := sizing(o.0, o.1, o.2, o.3);
      match Realize(sp, loan, o.0, o.1, o.2, o.3, convert, false)
      case Ok(profit) => Ok(TradeDetails(sp, Quantity(sp, loan), profit))
      case Err(InvalidArgument) => Ok(NoTrade)
      case Err(e) => Err(e)
  }

  /** `findMaxBuy` with the guarded repayment quote and a loan bounded by
      the reserve it is borrowed from: every failure in the swap steps is
      an answer of NONE, and only a zero reserve is an error. */
  function FindMaxBuyGuarded(aBase: nat, aAlt: nat, bBase: nat, bAlt: nat, convert: bool, sizing: Sizing): (r: Result<TradeDetails, QuoteError>)
    ensures var dir := TradeDirection(aBase, aAlt, bBase, bAlt);
      && (r.Err? <==> aBase == 0 || aAlt == 0 || bBase == 0 || bAlt == 0)
      && (r.Err? ==> r.error == InsufficientLiquidity)
      && (dir == Ok(NONE) ==> r == Ok(NoTrade))
      && (r.Ok? ==> WellTagged(r.value, convert))
      && (r.Ok? && r.value.startPoint != NONE ==>
            && dir == Ok(r.value.startPoint)
            && r.value.initialLoan.quantity == Loan(dir.value, aBase, aAlt, bBase, bAlt, sizing)
            && r.value.initialLoan.quantity < Borrowable(dir.value, aBase, aAlt))
      && (dir.Ok? && dir.value != NONE ==>
            var o := Orient(dir.value, aBase, aAlt, bBase, bAlt);
            var attempt := Realize(dir.value, Loan(dir.value, aBase, aAlt, bBase, bAlt, sizing), o.0, o.1, o.2, o.3, convert, true);
            && (r.Ok? && r.value.startPoint != NONE <==> attempt.Ok?)
            && (attempt.Ok? ==> r.value.expectedProfit == attempt.value))
  {
    var sp :- TradeDirection(aBase, aAlt, bBase, bAlt);
    if sp == NONE then Ok(NoTrade)
    else
      var o := Orient(sp, aBase, aAlt, bBase, bAlt);
      var loan := sizing(o.0, o.1, o.2, o.3);
      match Realize(sp, loan, o.0, o.1, o.2, o.3, convert, true)
      case Ok(profit) => Ok(TradeDetails(sp, Quantity(sp, loan), profit))
      case Err(_) => Ok(NoTrade)
  }

  /** Converting a BASE start's profit to BASE is the BASE round trip of
      `calcArb` at the chosen loan size. */
  lemma FindMaxBuyConvertIsCalcArb(aBase: nat, aAlt: nat, bBase: nat, bAlt: nat, sizing: Sizing)
    requires FindMaxBuy(aBase, aAlt, bBase, bAlt, true, sizing).Ok?
    requires FindMaxBuy(aBase, aAlt, bBase, bAlt, true, sizing).value.startPoint == BASE
    ensures var t := FindMaxBuy(aBase, aAlt, bBase, bAlt, true, sizing).value;
      CalcArb(t.initialLoan.quantity, BASE, aBase, aAlt, bBase, bAlt) == Ok(t.expectedProfit.quantity)
  {
  }

  /** Where the guarded solver recommends a trade, the solver as written
      recommends the same loan, and its profit is one unit higher exactly
      when the profit comes from the repayment quote. */
  lemma FindMaxBuyGuardedAgrees(aBase: nat, aAlt: nat, bBase: nat, bAlt: nat, convert: bool, sizing: Sizing)
    requires FindMaxBuyGuarded(aBase, aAlt, bBase, bAlt, convert, sizing).Ok?
    requires FindMaxBuyGuarded(aBase, aAlt, bBase, bAlt, convert, sizing).value.startPoint != NONE
    ensures var g := FindMaxBuyGuarded(aBase, aAlt, bBase, bAlt, convert, sizing).value;
      var w := FindMaxBuy(aBase, aAlt, bBase, bAlt, convert, sizing);
      var repaid := g.startPoint == ALT || !convert;
      && w.Ok?
      && w.value.startPoint == g.startPoint
      && w.value.initialLoan == g.initialLoan
      && w.value.expectedProfit.asset == g.expectedProfit.asset
      && w.value.expectedProfit.quantity == g.expectedProfit.quantity + (if repaid then 1 else 0)
  {
    var sp := TradeDirection(aBase, aAlt, bBase, bAlt).value;
    var o := Orient(sp, aBase, aAlt, bBase, bAlt);
    var loan := sizing(o.0, o.1, o.2, o.3);
    if sp == ALT || !convert {
      GetAmountInGuardedRoundsUp(loan, o.0, o.1, SWAP_FEE);
    }
  }

  /** A sizing that keeps every loan below the reserve it is borrowed
      from, as the square-root sizing of `findMaxBuy` does: its loan is at
      most `phi B0 A1 / (4 (phi B0 + A0))`, a quarter of `A1` at most. */
  ghost predicate SizingBelowReserve(sizing: Sizing)
  {
    forall a0: nat, a1: nat, b0: nat, b1: nat ::
      a0 > 0 && a1 > 0 && b0 > 0 && b1 > 0 ==> sizing(a0, a1, b0, b1) < a1
  }

  /** With such a sizing the repayment quote can neither divide by zero
      nor turn negative: the solver as written fails only on an empty
      reserve, and recommends a trade exactly when the guarded one does. */
  lemma FindMaxBuyBoundedSizing(aBase: nat, aAlt: nat, bBase: nat, bAlt: nat, convert: bool, sizing: Sizing)
    requires SizingBelowReserve(sizing)
    ensures var w := FindMaxBuy(aBase, aAlt, bBase, bAlt, convert, sizing);
      var g := FindMaxBuyGuarded(aBase, aAlt, bBase, bAlt, convert, sizing);
      && (w.Err? <==> aBase == 0 || aAlt == 0 || bBase == 0 || bAlt == 0)
      && w != Err(DivisionByZero)
      && (w.Ok? && w.value.startPoint != NONE <==> g.Ok? && g.value.startPoint != NONE)
  {
  }

  /** Equal prices on both venues never yield a trade. */
  lemma FindMaxBuyEqualPrices(convert: bool, sizing: Sizing)
    ensures FindMaxBuy(1000, 1000, 1000, 1000, convert, sizing) == Ok(NoTrade)
    ensures FindMaxBuyGuarded(1000, 1000, 1000, 1000, convert, sizing) == Ok(NoTrade)
  {
  }

  /** Finding: a loan equal to the borrowed reserve makes the repayment
      quote divide by zero, and the error escapes `findMaxBuy`; a larger
      loan gets a negative repayment and an inflated profit. The guarded
      solver answers NONE to both. */
  lemma FindMaxBuyLoanAtReserve()
    ensures FindMaxBuy(1000, 1000, 1000, 950, false, (a0: nat, a1: nat, b0: nat, b1: nat) => 1000) == Err(DivisionByZero)
    ensures FindMaxBuy(1000, 1000, 1000, 950, false, (a0: nat, a1: nat, b0: nat, b1: nat) => 2000)
      == Ok(TradeDetails(ALT, Quantity(ALT, 2000), Quantity(BASE, 2683)))
    ensures FindMaxBuyGuarded(1000, 1000, 1000, 950, false, (a0: nat, a1: nat, b0: nat, b1: nat) => 1000) == Ok(NoTrade)
    ensures FindMaxBuyGuarded(1000, 1000, 1000, 950, false, (a0: nat, a1: nat, b0: nat, b1: nat) => 2000) == Ok(NoTrade)
  {
    assert TradeDirection(1000, 1000, 1000, 950) == Ok(ALT);
    assert GetAmountOut(1000, 950, 1000, SWAP_FEE) == Ok(512);
    assert GetAmountOut(2000, 950, 1000, SWAP_FEE) == Ok(677);
    assert GetAmountIn(2000, 1000, 1000, SWAP_FEE) == Ok(-2006);
  }
}

=== FILE: chain_sync.dfy ===
/** The sync engine (`ChainData`): factory handles kept by folded address,
    the set difference that finds pair indices missing from the registry,
    registration of one pair and its tokens, the worker loop over a list
    of indices, and `sync`, which chains the two. Chain reads go through a
    `ChainReader` whose every call may fail. */
module ChainSync {

  import opened Outcomes
  import opened Addresses
  import opened Registry

  /** Token metadata as `TokenAccount.get` reads it. */
  datatype TokenMeta = TokenMeta(decimals: int, name: string, symbol: string)

  /** Pair metadata as `PairAccount.get` reads it. */
  datatype PairMeta = PairMeta(decimals: int, token0: string, token1: string)

  /** The read-only chain calls; `None` is a failed call. */
  datatype ChainReader = ChainReader(
    pairCount: string -> Option<nat>,          // factory.getTotalPairCount()
    pairAt: (string, int) -> Option<string>,   // factory.getPairFromIndex(i)
    pairMeta: string -> Option<PairMeta>,      // decimals, token0, token1 of a pair
    tokenMeta: string -> Option<TokenMeta>)    // decimals, name, symbol of a token

  datatype SyncError = FactoryNotFound | RpcFailed | Sql(constraint: Constraint)

  /** How one registration ended: `Done` (including a swallowed duplicate)
      or the error it threw. */
  datatype Attempt = Done | Failed(error: SyncError)

  /** The factory handles (folded address to the address the handle was
      made with) and the registry they sync into. */
  datatype ChainData = ChainData(handles: map<string, string>, store: Store)

  predicate HandlesOk(c: ChainData)
  {
    forall k :: k in c.handles ==> Lower(c.handles[k]) == k
  }

  predicate Distinct<T(==)>(s: seq<T>)
  {
    forall i, j :: 0 <= i < j < |s| ==> s[i] != s[j]
  }

  /** Dropping the last element of a list without repeats leaves a list
      without repeats that does not hold it. */
  lemma DistinctSplit<T>(s: seq<T>)
    requires Distinct(s) && s != []
    ensures Distinct(s[..|s| - 1])
    ensures s[|s| - 1] !in s[..|s| - 1]
    ensures forall x :: x in s[..|s| - 1] ==> x in s
  {
  }

  /** `differenceSet(a, b)`: the elements of `a` not in `b`, in order. */
  function DifferenceSet<T(==,!new)>(a: seq<T>, b: set<T>): (r: seq<T>)
    ensures forall x :: x in r <==> x in a && x !in b
    ensures |r| <= |a|
    ensures Distinct(a) ==> Distinct(r)
    ensures (forall i :: 0 <= i < |a| ==> a[i] in b) ==> r == []
  {
    if a == [] then []
    else
      var rest := DifferenceSet(a[1..], b);
      assert forall x :: x in a[1..] ==> x in a;
      if a[0] in b then rest else [a[0]] + rest
  }

  /** The keys `0 .. n-1` of an array of length `n`. */
  function Range(n: nat): (r: seq<int>)
    ensures |r| == n
    ensures forall i :: 0 <= i < n ==> r[i] == i
    ensures forall i :: i in r <==> 0 <= i < n
    ensures Distinct(r)
  {
    if n == 0 then [] else Range(n - 1) + [n - 1]
  }

  /** The store only gains token and pair rows, and keeps the old ones. */
  predicate Grows(s: Store, s': Store)
  {
    && s'.factories == s.factories
    && (forall k :: k in s.tokens ==> k in s'.tokens && s'.tokens[k] == s.tokens[k])
    && (forall k :: k in s.pairs ==> k in s'.pairs && s'.pairs[k] == s.pairs[k])
  }

  /** `registerNewFactory`: a handle under the folded address, and the
      factory in the registry unless a row already claims its name, address
      or router. */
  function RegisterNewFactory(c: ChainData, name: string, address: string, routerAddress: string, fee: int): (c': ChainData)
    ensures c'.handles == c.handles[Lower(address) := address]
    ensures c'.store == AddFactory(c.store, name, Lower(address), routerAddress, fee)
    ensures Lower(address) in c.store.factories ==> c'.store == c.store
  {
    LowerIsLower(address);
    ChainData(c.handles[Lower(address) := address], AddFactory(c.store, name, Lower(address), routerAddress, fee))
  }

  /** Registering a factory keeps every handle under its folded address and
      the registry's constraints. */
  lemma RegisterNewFactoryPreserves(c: ChainData, name: string, address: string, routerAddress: string, fee: int)
    ensures HandlesOk(c) ==> HandlesOk(RegisterNewFactory(c, name, address, routerAddress, fee))
    ensures Valid(c.store) ==> Valid(RegisterNewFactory(c, name, address, routerAddress, fee).store)
  {
    LowerIsLower(address);
  }

  /** Re-registering a stored factory row makes its handle and leaves the
      registry as it was. */
  method ReloadFactory(c: ChainData, k: string) returns (c': ChainData)
    requires k in c.store.factories && c.store.factories[k].address == k && IsLower(k)
    ensures c' == ChainData(c.handles[k := k], c.store)
  {
    var row := c.store.factories[k];
    LowerFixesLower(k);
    c' := RegisterNewFactory(c, row.name, row.address, row.router, row.fee);
  }

  /** `loadAllFactories`: re-register every stored factory, which makes a
      handle for each and leaves the registry as it was. */
  method LoadAllFactories(c: ChainData) returns (c': ChainData, factoryList: set<FactoryRow>)
    requires Valid(c.store)
    ensures factoryList == GetFactories(c.store)
    ensures c'.store == c.store
    ensures c'.handles.Keys == c.handles.Keys + c.store.factories.Keys
    ensures forall k :: k in c.store.factories ==> c'.handles[k] == k
    ensures forall k :: k in c.handles && k !in c.store.factories ==> c'.handles[k] == c.handles[k]
  {
    factoryList := GetFactories(c.store);
    c' := ReloadFactories(c, c.store.factories.Keys);
  }

  /** Reloads each factory in `keys`, one handle per stored row. */
  method ReloadFactories(c: ChainData, keys: set<string>) returns (c': ChainData)
    requires forall k :: k in keys ==> k in c.store.factories && c.store.factories[k].address == k && IsLower(k)
    ensures Loaded(c, c', keys)
  {
    c' := c;
    var todo := keys;
    while todo != {}
      invariant todo <= keys
      invariant Loaded(c, c', keys - todo)
      decreases todo
    {
      var k :| k in todo;
      var done := keys - todo;
      LoadedStep(c, c', done, k);
      c' := ReloadFactory(c', k);
      assert keys - (todo - {k}) == done + {k};
      todo := todo - {k};
    }
  }

  /** The state after reloading the factories in `done`: the registry as it
      was, a handle for each of them, and every other handle kept. */
  predicate Loaded(c: ChainData, c': ChainData, done: set<string>)
  {
    && c'.store == c.store
    && c'.handles.Keys == c.handles.Keys + done
    && (forall k :: k in done ==> c'.handles[k] == k)
    && (forall k :: k in c.handles && k !in done ==> c'.handles[k] == c.handles[k])
  }

  lemma LoadedStep(c: ChainData, c': ChainData, done: set<string>, k: string)
    requires Loaded(c, c', done)
    ensures Loaded(c, ChainData(c'.handles[k := k], c'.store), done + {k})
  {
  }

  /** `registerTokenIfNotExist`: a known token needs nothing; an unknown one
      is read from the chain and added. */
  function RegisterTokenIfNotExist(s: Store, reader: ChainReader, address: string): (r: (Store, Attempt))
    ensures GetTokenFromAddress(s, address).Some? ==> r == (s, Done)
    ensures r.1 == Done ==> Lower(address) in r.0.tokens
    ensures r.1.Failed? ==> r == (s, Failed(RpcFailed)) && reader.tokenMeta(address).None?
    ensures r.0.factories == s.factories && r.0.pairs == s.pairs
    ensures r.0.tokens.Keys <= s.tokens.Keys + {Lower(address)}
    ensures Grows(s, r.0)
    ensures Valid(s) ==> Valid(r.0)
  {
    if GetTokenFromAddress(s, address).Some? then (s, Done)
    else
      match reader.tokenMeta(address)
      case None => (s, Failed(RpcFailed))
      case Some(m) => (AddToken(s, TokenInfo(m.decimals, m.name, m.symbol, address)), Done)
  }

  /** A known token is not read from the chain: any reader gives the same
      answer, and the store is untouched. */
  lemma RegisterKnownTokenReadsNothing(s: Store, r1: ChainReader, r2: ChainReader, address: string)
    requires Lower(address) in s.tokens
    ensures RegisterTokenIfNotExist(s, r1, address) == RegisterTokenIfNotExist(s, r2, address) == (s, Done)
  {
  }

  /** The pair address a factory handle reports at an index. */
  function PairAddress(reader: ChainReader, handle: string, index: int): string
    requires reader.pairAt(handle, index).Some?
  {
    reader.pairAt(handle, index).value
  }

  /** The row a successful registration writes. */
  function RegisteredRow(reader: ChainReader, key: string, pairAddress: string, index: int): PairRow
    requires reader.pairMeta(pairAddress).Some?
  {
    var m := reader.pairMeta(pairAddress).value;
    PairRowOf(PairInfo(Some(index), m.decimals, m.token0, m.token1, key, pairAddress), index)
  }

  /** The two `registerTokenIfNotExist` calls of a pair registration:
      token0 first, and token1 only if token0 succeeded. */
  function RegisterPairTokens(s: Store, reader: ChainReader, m: PairMeta): (r: (Store, Attempt))
    ensures r.0.factories == s.factories && r.0.pairs == s.pairs
    ensures r.0.tokens.Keys <= s.tokens.Keys + {Lower(m.token0), Lower(m.token1)}
    ensures Grows(s, r.0)
    ensures Valid(s) ==> Valid(r.0)
    ensures r.1 == Done <==>
      && (Lower(m.token0) in s.tokens || reader.tokenMeta(m.token0).Some?)
      && (Lower(m.token1) in s.tokens || Lower(m.token1) == Lower(m.token0) || reader.tokenMeta(m.token1).Some?)
    ensures r.1 == Done ==> Lower(m.token0) in r.0.tokens && Lower(m.token1) in r.0.tokens
    ensures r.1.Failed? ==> r.1.error == RpcFailed
  {
    var (s1, a1) := RegisterTokenIfNotExist(s, reader, m.token0);
    if a1.Failed? then (s1, a1)
    else RegisterTokenIfNotExist(s1, reader, m.token1)
  }

  /** The guarded `addPair`: a duplicate address ends as `Done` with the
      store unchanged, and any other refusal is rethrown. */
  function InsertPair(s: Store, info: PairInfo): (r: (Store, Attempt))
    ensures r.1 == Done <==> AddPair(s, info).Ok? || AddPair(s, info) == Err(Unique)
    ensures AddPair(s, info).Ok? ==> r.0 == AddPair(s, info).value
    ensures AddPair(s, info).Err? ==> r.0 == s
    ensures r.1.Failed? ==> r.1 == Failed(Sql(AddPair(s, info).error)) && r.1.error != Sql(Unique)
    ensures r.1 == Done ==> Lower(info.address) in r.0.pairs && r.0.pairs.Keys == s.pairs.Keys + {Lower(info.address)}
  {
    match AddPair(s, info)
    case Ok(s') => (s', Done)
    case Err(Unique) => (s, Done)
    case Err(e) => (s, Failed(Sql(e)))
  }

  /** `registerPairFromFactoryIndex`: read the pair at the index and its
      tokens, register both tokens, then the pair with its index. A
      duplicate pair address is swallowed; every other error is thrown,
      keeping whatever tokens were already written. */
  function RegisterPairFromFactoryIndex(c: ChainData, reader: ChainReader, factoryAddress: string, index: int): (r: (Store, Attempt))
    ensures Lower(factoryAddress) !in c.handles ==> r == (c.store, Failed(FactoryNotFound))
    ensures r.1 != Failed(Sql(Unique))
  {
    var key := Lower(factoryAddress);
    if key !in c.handles then (c.store, Failed(FactoryNotFound))
    else
      match reader.pairAt(c.handles[key], index)
      case None => (c.store, Failed(RpcFailed))
      case Some(pairAddress) =>
        match reader.pairMeta(pairAddress)
        case None => (c.store, Failed(RpcFailed))
        case Some(m) =>
          var (s2, a2) := RegisterPairTokens(c.store, reader, m);
          if a2.Failed? then (s2, a2)
          else InsertPair(s2, PairInfo(Some(index), m.decimals, m.token0, m.token1, key, pairAddress))
  }

  /** A registration only adds token and pair rows, and keeps the
      schema's constraints. */
  lemma RegisterPairPreserves(c: ChainData, reader: ChainReader, factoryAddress: string, index: int)
    ensures Grows(c.store, RegisterPairFromFactoryIndex(c, reader, factoryAddress, index).0)
    ensures Valid(c.store) ==> Valid(RegisterPairFromFactoryIndex(c, reader, factoryAddress, index).0)
  {
  }

  /** The only pair row a registration can add is the one for the pair
      the factory reports at that index, tagged with the index and the
      folded factory address. */
  lemma RegisterPairNewRow(c: ChainData, reader: ChainReader, factoryAddress: string, index: int, k: string)
    requires k in RegisterPairFromFactoryIndex(c, reader, factoryAddress, index).0.pairs
    requires k !in c.store.pairs
    ensures Lower(factoryAddress) in c.handles
    ensures reader.pairAt(c.handles[Lower(factoryAddress)], index).Some?
    ensures var a := PairAddress(reader, c.handles[Lower(factoryAddress)], index);
      && reader.pairMeta(a).Some?
      && k == Lower(a)
      && RegisterPairFromFactoryIndex(c, reader, factoryAddress, index).0.pairs[k] == RegisteredRow(reader, Lower(factoryAddress), a, index)
  {
  }

  /** A registration that ends `Done` leaves the pair and both its tokens in
      the registry; if the pair was there already, the pair table is as it
      was. */
  lemma RegisterPairDone(c: ChainData, reader: ChainReader, factoryAddress: string, index: int)
    requires RegisterPairFromFactoryIndex(c, reader, factoryAddress, index).1 == Done
    ensures Lower(factoryAddress) in c.handles
    ensures reader.pairAt(c.handles[Lower(factoryAddress)], index).Some?
    ensures var a := PairAddress(reader, c.handles[Lower(factoryAddress)], index);
      var s' := RegisterPairFromFactoryIndex(c, reader, factoryAddress, index).0;
      && reader.pairMeta(a).Some?
      && Lower(a) in s'.pairs
      && Lower(reader.pairMeta(a).value.token0) in s'.tokens
      && Lower(reader.pairMeta(a).value.token1) in s'.tokens
      && (Lower(a) in c.store.pairs ==> s'.pairs == c.store.pairs)
  {
  }

  /** With every read succeeding and the pair new, a registration inserts
      it and ends `Done`. */
  lemma RegisterPairInserts(c: ChainData, reader: ChainReader, factoryAddress: string, index: int)
    requires Lower(factoryAddress) in c.handles && Lower(factoryAddress) in c.store.factories
    requires ReadsSucceed(reader, c.handles[Lower(factoryAddress)], [index])
    requires Lower(PairAddress(reader, c.handles[Lower(factoryAddress)], index)) !in c.store.pairs
    ensures var r := RegisterPairFromFactoryIndex(c, reader, factoryAddress, index);
      var a := PairAddress(reader, c.handles[Lower(factoryAddress)], index);
      && r.1 == Done
      && r.0.pairs == c.store.pairs[Lower(a) := RegisteredRow(reader, Lower(factoryAddress), a, index)]
      && r.0.factories == c.store.factories
  {
    assert index in [index];
    LowerIsLower(factoryAddress);
  }

  /** The pair indices `getPairIndexAddressList` reports for a factory. */
  function StoredIndices(s: Store, factoryKey: string): (r: set<int>)
    ensures forall i :: i in r <==> exists k :: k in s.pairs && s.pairs[k].factory == Lower(factoryKey) && s.pairs[k].index == i
  {
    var rows := GetPairIndexAddressList(s, factoryKey);
    var r := set e | e in rows :: e.1;
    assert forall k :: k in s.pairs && s.pairs[k].factory == Lower(factoryKey) ==> s.pairs[k].index in r by {
      forall k | k in s.pairs && s.pairs[k].factory == Lower(factoryKey)
        ensures s.pairs[k].index in r
      {
        assert (k, s.pairs[k].index) in rows;
      }
    }
    r
  }

  /** `getAbsentPairsInFactory`: the indices `0 .. N-1` of the factory's
      pairs that the registry does not hold yet, in increasing order. */
  function GetAbsentPairsInFactory(c: ChainData, reader: ChainReader, factoryAddress: string): (r: Result<seq<int>, SyncError>)
    ensures Lower(factoryAddress) !in c.handles <==> r == Err(FactoryNotFound)
    ensures r.Err? ==> r.error == FactoryNotFound || r.error == RpcFailed
    ensures r.Ok? ==>
      && Lower(factoryAddress) in c.handles
      && reader.pairCount(c.handles[Lower(factoryAddress)]).Some?
      && var n := reader.pairCount(c.handles[Lower(factoryAddress)]).value;
         && Distinct(r.value)
         && |r.value| <= n
         && forall i :: i in r.value <==> 0 <= i < n && i !in StoredIndices(c.store, Lower(factoryAddress))
  {
    var key := Lower(factoryAddress);
    var stored := StoredIndices(c.store, key);
    LowerIsLower(factoryAddress);
    if key !in c.handles then Err(FactoryNotFound)
    else
      match reader.pairCount(c.handles[key])
      case None => Err(RpcFailed)
      case Some(n) => Ok(DifferenceSet(Range(n), stored))
  }

  /** `getAbsentPairsInFactory` as written: the pair count arrives as a
      BigNumber object, and `Array(count)` of an object is a one-element
      array, so only index 0 is ever considered. */
  function GetAbsentPairsInFactoryAsWritten(c: ChainData, reader: ChainReader, factoryAddress: string): (r: Result<seq<int>, SyncError>)
    ensures Lower(factoryAddress) !in c.handles <==> r == Err(FactoryNotFound)
    ensures r.Ok? ==> forall i :: i in r.value <==> i == 0 && i !in StoredIndices(c.store, Lower(factoryAddress))
  {
    var key := Lower(factoryAddress);
    var stored := StoredIndices(c.store, key);
    LowerIsLower(factoryAddress);
    if key !in c.handles then Err(FactoryNotFound)
    else
      match reader.pairCount(c.handles[key])
      case None => Err(RpcFailed)
      case Some(_) => Ok(DifferenceSet(Range(1), stored))
  }

  /** A registered factory with no pairs in the registry... */
  function SampleChainData(): ChainData
  {
    ChainData(map["0xf" := "0xf"], Store(map["0xf" := FactoryRow("f", "0xf", "0xr", 3)], map[], map[]))
  }

  /** ...whose contract reports three pairs. */
  function SampleReader(): ChainReader
  {
    ChainReader((a: string) => Some(3), (a: string, i: int) => None, (a: string) => None, (a: string) => None)
  }

  lemma SampleKeyFolded()
    ensures Lower("0xf") == "0xf"
  {
    assert "0xf"[1..] == "xf" && "xf"[1..] == "f" && "f"[1..] == "";
  }

  /** Finding: a factory with three pairs and none registered yields only
      index 0 as written. */
  lemma AbsentPairsAsWrittenMissesIndices()
    ensures GetAbsentPairsInFactoryAsWritten(SampleChainData(), SampleReader(), "0xf") == Ok([0])
  {
    SampleKeyFolded();
    assert StoredIndices(SampleChainData().store, "0xf") == {};
    assert Range(1) == [0];
    assert DifferenceSet([0], {}) == [0] by {
      assert [0][1..] == [];
    }
  }

  /** The same factory with the count used as a number: all three indices
      are absent. */
  lemma AbsentPairsSampleComplete()
    ensures GetAbsentPairsInFactory(SampleChainData(), SampleReader(), "0xf") == Ok([0, 1, 2])
  {
    SampleKeyFolded();
    assert StoredIndices(SampleChainData().store, "0xf") == {};
    var three := [0, 1, 2];
    assert Range(3) == three;
    assert three[1..] == [1, 2] && three[1..][1..] == [2] && three[1..][1..][1..] == [];
    assert DifferenceSet(three, {}) == three;
  }

  /** One worker iteration on an index, from a given store. */
  function Worker(handles: map<string, string>, reader: ChainReader, factoryAddress: string): (Store, int) -> (Store, Attempt)
  {
    (s: Store, index: int) => RegisterPairFromFactoryIndex(ChainData(handles, s), reader, factoryAddress, index)
  }

  /** Attempt every index in order from store `s`, threading the store
      through and counting the attempts that ended `Done`. */
  function Fold(work: (Store, int) -> (Store, Attempt), s: Store, indices: seq<int>): (r: (Store, nat))
    ensures r.1 <= |indices|
    decreases |indices|
  {
    if indices == [] then (s, 0)
    else
      var (s', n) := Fold(work, s, indices[..|indices| - 1]);
      var (s'', a) := work(s', indices[|indices| - 1]);
      (s'', if a == Done then n + 1 else n)
  }

  /** The count is every index when every attempt ends `Done`, none when
      none does, and attempts that never write leave the store alone. */
  lemma {:induction false} FoldUniform(work: (Store, int) -> (Store, Attempt), s: Store, indices: seq<int>)
    ensures (forall t: Store, i :: i in indices ==> work(t, i).1 == Done) ==> Fold(work, s, indices).1 == |indices|
    ensures (forall t: Store, i :: i in indices ==> work(t, i).1 != Done) ==> Fold(work, s, indices).1 == 0
    ensures (forall t: Store, i :: i in indices ==> work(t, i).0 == t) ==> Fold(work, s, indices).0 == s
    decreases |indices|
  {
    if indices != [] {
      var prefix, last := indices[..|indices| - 1], indices[|indices| - 1];
      assert forall i :: i in prefix ==> i in indices;
      assert last in indices;
      FoldUniform(work, s, prefix);
      var mid := Fold(work, s, prefix);
      assert Fold(work, s, indices) ==
        (work(mid.0, last).0, if work(mid.0, last).1 == Done then mid.1 + 1 else mid.1);
    }
  }

  /** Folding over a concatenation is folding over the second list from
      where the first left the store. */
  lemma {:induction false} FoldAppend(work: (Store, int) -> (Store, Attempt), s: Store, xs: seq<int>, ys: seq<int>)
    ensures var first := Fold(work, s, xs);
      var second := Fold(work, first.0, ys);
      Fold(work, s, xs + ys) == (second.0, first.1 + second.1)
    decreases |ys|
  {
    if ys == [] {
      assert xs + ys == xs;
    } else {
      var ys' := ys[..|ys| - 1];
      assert (xs + ys)[..|xs + ys| - 1] == xs + ys';
      assert (xs + ys)[|xs + ys| - 1] == ys[|ys| - 1];
      FoldAppend(work, s, xs, ys');
    }
  }

  /** The worker loop read sequentially: every index is attempted once, in
      order, whatever became of the ones before; the count is the number
      of attempts that ended `Done`. */
  function RegisterAll(c: ChainData, reader: ChainReader, factoryAddress: string, indices: seq<int>): (r: (Store, nat))
    ensures r.1 <= |indices|
  {
    Fold(Worker(c.handles, reader, factoryAddress), c.store, indices)
  }

  /** The loop only adds token and pair rows, and keeps the schema's
      constraints. */
  lemma {:induction false} FoldPreserves(handles: map<string, string>, reader: ChainReader, factoryAddress: string, s: Store, indices: seq<int>)
    ensures var r := Fold(Worker(handles, reader, factoryAddress), s, indices);
      Grows(s, r.0) && (Valid(s) ==> Valid(r.0))
    decreases |indices|
  {
    if indices != [] {
      var prefix := indices[..|indices| - 1];
      FoldPreserves(handles, reader, factoryAddress, s, prefix);
      var mid := Fold(Worker(handles, reader, factoryAddress), s, prefix).0;
      RegisterPairPreserves(ChainData(handles, mid), reader, factoryAddress, indices[|indices| - 1]);
    }
  }

  /** Without a handle for the factory every index fails and nothing is
      written. */
  lemma RegisterAllWithoutFactory(c: ChainData, reader: ChainReader, factoryAddress: string, indices: seq<int>)
    requires Lower(factoryAddress) !in c.handles
    ensures RegisterAll(c, reader, factoryAddress, indices) == (c.store, 0)
  {
    var work := Worker(c.handles, reader, factoryAddress);
    assert forall t: Store, i :: work(t, i) == (t, Failed(FactoryNotFound));
    FoldUniform(work, c.store, indices);
  }

  lemma RegisterAllPreserves(c: ChainData, reader: ChainReader, factoryAddress: string, indices: seq<int>)
    ensures Grows(c.store, RegisterAll(c, reader, factoryAddress, indices).0)
    ensures Valid(c.store) ==> Valid(RegisterAll(c, reader, factoryAddress, indices).0)
  {
    FoldPreserves(c.handles, reader, factoryAddress, c.store, indices);
  }

  /** A failed index does not stop the ones after it: the loop over a
      concatenation is the loop over the second list started from where
      the first left the store. */
  lemma RegisterAllAppend(c: ChainData, reader: ChainReader, factoryAddress: string, xs: seq<int>, ys: seq<int>)
    ensures var first := RegisterAll(c, reader, factoryAddress, xs);
      var second := RegisterAll(ChainData(c.handles, first.0), reader, factoryAddress, ys);
      RegisterAll(c, reader, factoryAddress, xs + ys) == (second.0, first.1 + second.1)
  {
    FoldAppend(Worker(c.handles, reader, factoryAddress), c.store, xs, ys);
  }

  /** `registerPairFromFactoryIndexArray`, its workers run one after the
      other over the shared list. */
  method RegisterPairFromFactoryIndexArray(c: ChainData, reader: ChainReader, factoryAddress: string, indices: seq<int>)
    returns (s: Store, count: nat)
    ensures (s, count) == RegisterAll(c, reader, factoryAddress, indices)
    ensures count <= |indices|
  {
    s, count := c.store, 0;
    var i := 0;
    while i < |indices|
      invariant 0 <= i <= |indices|
      invariant (s, count) == RegisterAll(c, reader, factoryAddress, indices[..i])
    {
      assert indices[..i + 1][..i] == indices[..i];
      var (s', a) := RegisterPairFromFactoryIndex(ChainData(c.handles, s), reader, factoryAddress, indices[i]);
      s := s';
      if a == Done {
        count := count + 1;
      }
      i := i + 1;
    }
    assert indices[..|indices|] == indices;
  }

  /** `sync`: find the absent indices, then register them. */
  function Sync(c: ChainData, reader: ChainReader, factoryAddress: string): (r: Result<(Store, nat), SyncError>)
    ensures r.Err? <==> GetAbsentPairsInFactory(c, reader, factoryAddress).Err?
    ensures r.Err? ==> r.error == GetAbsentPairsInFactory(c, reader, factoryAddress).error
    ensures r.Ok? ==> Grows(c.store, r.value.0) && r.value.1 <= |GetAbsentPairsInFactory(c, reader, factoryAddress).value|
  {
    var absent :- GetAbsentPairsInFactory(c, reader, factoryAddress);
    RegisterAllPreserves(c, reader, factoryAddress, absent);
    Ok(RegisterAll(c, reader, factoryAddress, absent))
  }

  // ---------------------------------------------------------------------
  // A sync in which every registration inserts its pair leaves nothing
  // absent, so a second sync adds nothing.

  /** Every chain read a registration of these indices makes succeeds. */
  predicate ReadsSucceed(reader: ChainReader, handle: string, indices: seq<int>)
  {
    forall i :: i in indices ==>
      && reader.pairAt(handle, i).Some?
      && reader.pairMeta(PairAddress(reader, handle, i)).Some?
      && reader.tokenMeta(reader.pairMeta(PairAddress(reader, handle, i)).value.token0).Some?
      && reader.tokenMeta(reader.pairMeta(PairAddress(reader, handle, i)).value.token1).Some?
  }

  /** The indices name different pair contracts, none of them registered. */
  predicate FreshPairs(reader: ChainReader, handle: string, s: Store, indices: seq<int>)
    requires ReadsSucceed(reader, handle, indices)
  {
    && (forall i, j :: i in indices && j in indices && i != j ==>
          Lower(PairAddress(reader, handle, i)) != Lower(PairAddress(reader, handle, j)))
    && (forall i :: i in indices ==> Lower(PairAddress(reader, handle, i)) !in s.pairs)
  }

  /** Every pair row the loop adds is the pair the factory reports at
      one of the indices. */
  lemma {:induction false} RegisterAllNewRows(c: ChainData, reader: ChainReader, factoryAddress: string, indices: seq<int>)
    ensures forall k :: k in RegisterAll(c, reader, factoryAddress, indices).0.pairs && k !in c.store.pairs ==>
      && Lower(factoryAddress) in c.handles
      && exists i :: i in indices && reader.pairAt(c.handles[Lower(factoryAddress)], i).Some?
                     && k == Lower(PairAddress(reader, c.handles[Lower(factoryAddress)], i))
    decreases |indices|
  {
    if indices != [] {
      var prefix := indices[..|indices| - 1];
      var last := indices[|indices| - 1];
      assert forall x :: x in prefix ==> x in indices;
      RegisterAllNewRows(c, reader, factoryAddress, prefix);
      var s := RegisterAll(c, reader, factoryAddress, prefix).0;
      var c' := ChainData(c.handles, s);
      var s' := RegisterPairFromFactoryIndex(c', reader, factoryAddress, last).0;
      assert s' == RegisterAll(c, reader, factoryAddress, indices).0;
      forall k | k in s'.pairs && k !in c.store.pairs
        ensures Lower(factoryAddress) in c.handles
        ensures exists i :: i in indices && reader.pairAt(c.handles[Lower(factoryAddress)], i).Some?
                            && k == Lower(PairAddress(reader, c.handles[Lower(factoryAddress)], i))
      {
        if k !in s.pairs {
          RegisterPairNewRow(c', reader, factoryAddress, last, k);
        }
      }
    }
  }

  /** Each of these indices has its pair in the registry, tagged with the
      index and the folded factory address. */
  predicate Inserted(reader: ChainReader, handle: string, key: string, s: Store, indices: seq<int>)
    requires ReadsSucceed(reader, handle, indices)
  {
    forall i :: i in indices ==>
      && Lower(PairAddress(reader, handle, i)) in s.pairs
      && s.pairs[Lower(PairAddress(reader, handle, i))].index == i
      && s.pairs[Lower(PairAddress(reader, handle, i))].factory == key
  }

  /** The fold's last iteration, unfolded. */
  lemma FoldLast(work: (Store, int) -> (Store, Attempt), s: Store, indices: seq<int>)
    requires indices != []
    ensures var prefix := Fold(work, s, indices[..|indices| - 1]);
      var step := work(prefix.0, indices[|indices| - 1]);
      Fold(work, s, indices) == (step.0, if step.1 == Done then prefix.1 + 1 else prefix.1)
  {
  }

  /** Inserting one more new pair keeps the earlier ones. */
  lemma InsertedStep(c: ChainData, reader: ChainReader, factoryAddress: string, prefix: seq<int>, last: int)
    requires Lower(factoryAddress) in c.handles && Lower(factoryAddress) in c.store.factories
    requires ReadsSucceed(reader, c.handles[Lower(factoryAddress)], prefix + [last])
    requires ReadsSucceed(reader, c.handles[Lower(factoryAddress)], prefix)
    requires Inserted(reader, c.handles[Lower(factoryAddress)], Lower(factoryAddress), c.store, prefix)
    requires Lower(PairAddress(reader, c.handles[Lower(factoryAddress)], last)) !in c.store.pairs
    ensures var r := Worker(c.handles, reader, factoryAddress)(c.store, last);
      r.1 == Done && Inserted(reader, c.handles[Lower(factoryAddress)], Lower(factoryAddress), r.0, prefix + [last])
  {
    assert Worker(c.handles, reader, factoryAddress)(c.store, last) == RegisterPairFromFactoryIndex(c, reader, factoryAddress, last);
    var h := c.handles[Lower(factoryAddress)];
    assert forall i :: i in [last] ==> i in prefix + [last];
    RegisterPairInserts(c, reader, factoryAddress, last);
    assert forall i :: i in prefix + [last] ==> i in prefix || i == last;
  }

  /** When every read succeeds and the pairs are new, the loop inserts
      every one of them, tagged with its index and factory, and counts
      them all. */
  lemma {:induction false} RegisterAllInserts(c: ChainData, reader: ChainReader, factoryAddress: string, indices: seq<int>)
    requires Lower(factoryAddress) in c.handles && Lower(factoryAddress) in c.store.factories
    requires ReadsSucceed(reader, c.handles[Lower(factoryAddress)], indices)
    requires FreshPairs(reader, c.handles[Lower(factoryAddress)], c.store, indices)
    requires Distinct(indices)
    ensures var r := RegisterAll(c, reader, factoryAddress, indices);
      && r.1 == |indices|
      && Inserted(reader, c.handles[Lower(factoryAddress)], Lower(factoryAddress), r.0, indices)
    decreases |indices|
  {
    if indices != [] {
      var key := Lower(factoryAddress);
      var h := c.handles[key];
      var prefix := indices[..|indices| - 1];
      var last := indices[|indices| - 1];
      DistinctSplit(indices);
      RegisterAllInserts(c, reader, factoryAddress, prefix);
      RegisterAllPreserves(c, reader, factoryAddress, prefix);
      RegisterAllNewRows(c, reader, factoryAddress, prefix);
      var s := RegisterAll(c, reader, factoryAddress, prefix).0;
      assert Lower(PairAddress(reader, h, last)) !in s.pairs;
      RegisterAllLastInsert(c, reader, factoryAddress, indices);
    }
  }

  /** The last iteration of the loop above: with the earlier indices
      inserted and counted, and the last pair still new, the last one is
      inserted and counted too. */
  lemma RegisterAllLastInsert(c: ChainData, reader: ChainReader, factoryAddress: string, indices: seq<int>)
    requires indices != []
    requires Lower(factoryAddress) in c.handles && Lower(factoryAddress) in c.store.factories
    requires ReadsSucceed(reader, c.handles[Lower(factoryAddress)], indices)
    requires ReadsSucceed(reader, c.handles[Lower(factoryAddress)], indices[..|indices| - 1])
    requires var before := RegisterAll(c, reader, factoryAddress, indices[..|indices| - 1]);
      && before.1 == |indices| - 1
      && before.0.factories == c.store.factories
      && Inserted(reader, c.handles[Lower(factoryAddress)], Lower(factoryAddress), before.0, indices[..|indices| - 1])
      && Lower(PairAddress(reader, c.handles[Lower(factoryAddress)], indices[|indices| - 1])) !in before.0.pairs
    ensures var r := RegisterAll(c, reader, factoryAddress, indices);
      && r.1 == |indices|
      && Inserted(reader, c.handles[Lower(factoryAddress)], Lower(factoryAddress), r.0, indices)
  {
    var prefix, last := indices[..|indices| - 1], indices[|indices| - 1];
    var work := Worker(c.handles, reader, factoryAddress);
    var before := RegisterAll(c, reader, factoryAddress, prefix);
    assert indices == prefix + [last];
    InsertedStep(ChainData(c.handles, before.0), reader, factoryAddress, prefix, last);
    FoldLast(work, c.store, indices);
  }

  /** Every index below the count is stored once the absent ones are. */
  lemma {:induction false} AbsentFilled(c: ChainData, reader: ChainReader, factoryAddress: string, s': Store)
    requires Lower(factoryAddress) in c.handles
    requires GetAbsentPairsInFactory(c, reader, factoryAddress).Ok?
    requires Grows(c.store, s')
    requires forall i :: i in GetAbsentPairsInFactory(c, reader, factoryAddress).value ==>
      exists k :: k in s'.pairs && s'.pairs[k].factory == Lower(factoryAddress) && s'.pairs[k].index == i
    ensures GetAbsentPairsInFactory(ChainData(c.handles, s'), reader, factoryAddress) == Ok([])
  {
    var key := Lower(factoryAddress);
    LowerIsLower(factoryAddress);
    var n := reader.pairCount(c.handles[key]).value;
    var absent := GetAbsentPairsInFactory(c, reader, factoryAddress).value;
    var after := GetAbsentPairsInFactory(ChainData(c.handles, s'), reader, factoryAddress);
    forall i | 0 <= i < n
      ensures i in StoredIndices(s', key)
    {
      if i in StoredIndices(c.store, key) {
        var k :| k in c.store.pairs && c.store.pairs[k].factory == key && c.store.pairs[k].index == i;
        assert s'.pairs[k] == c.store.pairs[k];
      } else {
        assert i in absent;
      }
    }
    assert after.Ok?;
  }

  /** After a sync in which every absent pair is read and inserted, no
      index is absent any more, and a second sync changes nothing. */
  lemma SyncCompletes(c: ChainData, reader: ChainReader, factoryAddress: string)
    requires Lower(factoryAddress) in c.handles && Lower(factoryAddress) in c.store.factories
    requires GetAbsentPairsInFactory(c, reader, factoryAddress).Ok?
    requires ReadsSucceed(reader, c.handles[Lower(factoryAddress)], GetAbsentPairsInFactory(c, reader, factoryAddress).value)
    requires FreshPairs(reader, c.handles[Lower(factoryAddress)], c.store, GetAbsentPairsInFactory(c, reader, factoryAddress).value)
    ensures Sync(c, reader, factoryAddress).Ok?
    ensures var r := Sync(c, reader, factoryAddress).value;
      && r.1 == |GetAbsentPairsInFactory(c, reader, factoryAddress).value|
      && GetAbsentPairsInFactory(ChainData(c.handles, r.0), reader, factoryAddress) == Ok([])
      && Sync(ChainData(c.handles, r.0), reader, factoryAddress) == Ok((r.0, 0))
  {
    var key := Lower(factoryAddress);
    var h := c.handles[key];
    var absent := GetAbsentPairsInFactory(c, reader, factoryAddress).value;
    RegisterAllInserts(c, reader, factoryAddress, absent);
    RegisterAllPreserves(c, reader, factoryAddress, absent);
    var r := RegisterAll(c, reader, factoryAddress, absent);
    assert Sync(c, reader, factoryAddress) == Ok(r);
    forall i | i in absent
      ensures exists k :: k in r.0.pairs && r.0.pairs[k].factory == key && r.0.pairs[k].index == i
    {
      var k := Lower(PairAddress(reader, h, i));
      assert k in r.0.pairs && r.0.pairs[k].factory == key && r.0.pairs[k].index == i;
    }
    AbsentFilled(c, reader, factoryAddress, r.0);
    assert RegisterAll(ChainData(c.handles, r.0), reader, factoryAddress, []) == (r.0, 0);
  }
}

=== FILE: int_math.dfy ===
/** Integer helpers: the truncating division of JavaScript big-number
    libraries, and the small facts about Euclidean division that the
    quoting proofs lean on. */
module IntMath {

  function Abs(x: int): nat
  {
    if x < 0 then -x else x
  }

  /** Division rounding toward zero, as `BigNumber.div` does. Dafny's own
      `/` is Euclidean; the two agree only on non-negative operands. */
  function TruncDiv(n: int, d: int): (q: int)
    requires d != 0
    ensures n >= 0 && d > 0 ==> q == n / d
    ensures Abs(q) * Abs(d) <= Abs(n) < (Abs(q) + 1) * Abs(d)
    ensures q != 0 ==> ((q < 0) <==> ((n < 0) != (d < 0)))
  {
    var m := Abs(n) / Abs(d);
    var q := if (n < 0) != (d < 0) then -m else m;
    TruncDivMagnitude(n, d, m, q);
    q
  }

  lemma TruncDivMagnitude(n: int, d: int, m: int, q: int)
    requires d != 0 && m == Abs(n) / Abs(d)
    requires q == if (n < 0) != (d < 0) then -m else m
    ensures Abs(q) * Abs(d) <= Abs(n) < (Abs(q) + 1) * Abs(d)
    ensures q != 0 ==> ((q < 0) <==> ((n < 0) != (d < 0)))
  {
    DivBounds(Abs(n), Abs(d));
    assert m >= 0;
    assert Abs(q) == m;
  }

  lemma DivBounds(a: nat, b: nat)
    requires b > 0
    ensures (a / b) * b <= a < (a / b + 1) * b
  {
    var k := a / b;
    assert a == k * b + a % b;
    assert (k + 1) * b == k * b + b;
  }

  lemma DivBoundsWhenPositive(a: int, b: int)
    ensures a >= 0 && b > 0 ==> (a / b) * b <= a < (a / b + 1) * b
  {
    if a >= 0 && b > 0 {
      DivBounds(a, b);
    }
  }

  lemma MulLeft(a: int, b: int, k: int)
    requires a <= b
    requires k >= 0
    ensures k * a <= k * b
  {
  }

  lemma MulStrict(a: int, b: int, k: int)
    requires a < b
    requires k > 0
    ensures k * a < k * b
  {
  }

  /** `q <= c / d` follows from `q * d <= c` for a positive divisor. */
  lemma LeDivFromMul(q: int, c: int, d: int)
    requires d > 0
    requires q * d <= c
    ensures q <= c / d
  {
    var k := c / d;
    assert (k + 1) * d == k * d + d;
    if q > k {
      MulLeft(k + 1, q, d);
    }
  }

  /** `c / d < q` follows from `c < q * d` for a positive divisor. */
  lemma DivLtFromMul(q: int, c: int, d: int)
    requires d > 0
    requires c < q * d
    ensures c / d < q
  {
    if c / d >= q {
      MulLeft(q, c / d, d);
    }
  }

  /** `c / d <= q` follows from `c <= q * d` for a positive divisor. */
  lemma DivLeFromMul(q: int, c: int, d: int)
    requires d > 0
    requires c <= q * d
    ensures c / d <= q
  {
    assert (q + 1) * d == q * d + d;
    DivLtFromMul(q + 1, c, d);
  }

  /** Signs of a product of two factors. */
  lemma MulSign(a: int, b: int)
    ensures a * b == 0 <==> a == 0 || b == 0
    ensures a > 0 && b > 0 ==> a * b > 0
    ensures a >= 0 && b >= 0 ==> a * b >= 0
    ensures a < 0 && b > 0 ==> a * b < 0
  {
    if a > 0 && b > 0 {
      MulStrict(0, b, a);
    } else if a < 0 && b > 0 {
      MulStrict(a, 0, b);
    }
  }

  /** Comparing two quotients through cross-multiplication. */
  lemma DivMonotoneCross(a: int, b: int, c: int, d: int)
    requires b > 0 && d > 0
    requires a * d <= c * b
    ensures a / b <= c / d
  {
    var q := a / b;
    assert q * b <= a;
    MulLeft(q * b, a, d);
    assert (q * d) * b == d * (q * b);
    assert (q * d) * b <= c * b;
    if q * d > c {
      MulStrict(c, q * d, b);
    }
    LeDivFromMul(q, c, d);
  }
}

=== FILE: js_number.dfy ===
/** JavaScript numbers, as far as the older direction test needs them: the
    double nearest to `x / 10000` for a safe integer `x`. Every such double
    is an integer multiple of 2^-66, so it is represented exactly by that
    integer. */
module JsNumber {

  import opened IntMath

  /** Ratios are kept to four decimal places. */
  const PRECISION: nat := 10000

  /** `BigNumber.toNumber` refuses values of 2^53 and above. */
  const SAFE_LIMIT: nat := 0x20_0000_0000_0000

  /** `10000 * 2^39`: below it, four-decimal quotients are further apart
      than one unit in the last place of a double. */
  const EXACT_LIMIT: nat := 5497558138880000

  function Pow2(n: nat): (r: nat)
    ensures r >= 1
  {
    if n == 0 then 1 else 2 * Pow2(n - 1)
  }

  lemma {:induction false} Pow2Add(a: nat, b: nat)
    ensures Pow2(a) * Pow2(b) == Pow2(a + b)
    decreases a
  {
    if a > 0 {
      Pow2Add(a - 1, b);
      assert Pow2(a) * Pow2(b) == 2 * (Pow2(a - 1) * Pow2(b));
    }
  }

  lemma {:induction false} Pow2Monotone(a: nat, b: nat)
    requires a <= b
    ensures Pow2(a) <= Pow2(b)
    decreases b
  {
    if a < b {
      Pow2Monotone(a, b - 1);
    }
  }

  lemma Pow2Values()
    ensures Pow2(14) == 16384
    ensures Pow2(52) == 4503599627370496
    ensures Pow2(53) == SAFE_LIMIT
    ensures Pow2(66) == 16384 * Pow2(52)
  {
    assert Pow2(13) == 8192;
    Pow2Add(13, 13);
    Pow2Add(26, 26);
    assert Pow2(53) == 2 * Pow2(52);
    Pow2Add(14, 52);
  }

  /** `floor(log2 n)`. */
  function Log2(n: nat): (r: nat)
    requires n >= 1
    ensures Pow2(r) <= n < Pow2(r + 1)
  {
    if n < 2 then 0 else 1 + Log2(n / 2)
  }

  /** `n / 10000` rounded to the nearest integer, ties to the even one:
      the result is within half a unit of the exact quotient. */
  function RoundHalfEven(n: nat): (m: nat)
    ensures 2 * (m * PRECISION) <= 2 * n + PRECISION
    ensures 2 * n <= 2 * (m * PRECISION) + PRECISION
  {
    var q := n / PRECISION;
    var rem := n % PRECISION;
    if 2 * rem > PRECISION || (2 * rem == PRECISION && q % 2 == 1) then q + 1 else q
  }

  lemma RoundHalfEvenMonotone(n1: nat, n2: nat)
    requires n1 <= n2
    ensures RoundHalfEven(n1) <= RoundHalfEven(n2)
  {
  }

  /** The binade of `x / 10000`: `2^(j - 14) <= x / 10000 < 2^(j - 13)`. */
  function Binade(x: nat): (j: nat)
    requires 1 <= x < SAFE_LIMIT
    ensures PRECISION * Pow2(j) <= x * 16384 < PRECISION * Pow2(j + 1)
    ensures j <= 53
  {
    var f := x * 16384 / PRECISION;
    DivBounds(x * 16384, PRECISION);
    var j := Log2(f);
    MulLeft(Pow2(j), f, PRECISION);
    MulLeft(f + 1, Pow2(j + 1), PRECISION);
    Pow2Values();
    assert Pow2(54) == 2 * Pow2(53);
    Log2Below(f, 54);
    j
  }

  lemma Log2Below(n: nat, k: nat)
    requires 1 <= n < Pow2(k)
    ensures Log2(n) < k
  {
    if Log2(n) >= k {
      Pow2Monotone(k, Log2(n));
    }
  }

  /** `x / 10000` as a JavaScript number, times 2^66. The significand is
      the quotient rounded, ties to even, to 53 bits within its binade,
      which is how IEEE 754 division rounds; the result is within half a
      unit in the last place of the exact quotient. */
  function RatioAsNumber(x: nat): (v: nat)
    requires x < SAFE_LIMIT
    ensures x == 0 <==> v == 0
    ensures x >= 1 ==> var j := Binade(x);
      && Pow2(52 + j) <= v <= Pow2(53 + j)
      && 2 * (PRECISION * v) <= 2 * (x * Pow2(66)) + PRECISION * Pow2(j)
      && 2 * (x * Pow2(66)) <= 2 * (PRECISION * v) + PRECISION * Pow2(j)
    ensures x >= 1 ==> v % Pow2(Binade(x)) == 0
  {
    if x == 0 then 0
    else
      var j := Binade(x);
      var m := RoundHalfEven(x * Pow2(66 - j));
      NearestDouble(x, j, m);
      MultipleMod(m, Pow2(j));
      m * Pow2(j)
  }

  /** A multiple of `p` leaves no remainder. */
  lemma MultipleMod(m: nat, p: nat)
    requires p > 0
    ensures (m * p) % p == 0
  {
    var q, r := (m * p) / p, (m * p) % p;
    assert m * p == p * q + r && 0 <= r < p;
    assert p * (m - q) == r;
    assert m - q >= 1 ==> p * (m - q) >= p;
    assert m - q <= -1 ==> p * (q - m) >= p;
  }

  /** The arithmetic behind it: a significand rounded from `x * 2^(66 - j)`
      has 53 bits and stays within half a unit. */
  lemma NearestDouble(x: nat, j: nat, m: nat)
    requires 1 <= x < SAFE_LIMIT && j <= 53
    requires PRECISION * Pow2(j) <= x * 16384 < PRECISION * Pow2(j + 1)
    requires 2 * (m * PRECISION) <= 2 * (x * Pow2(66 - j)) + PRECISION
    requires 2 * (x * Pow2(66 - j)) <= 2 * (m * PRECISION) + PRECISION
    ensures Pow2(52 + j) <= m * Pow2(j) <= Pow2(53 + j)
    ensures 2 * (PRECISION * (m * Pow2(j))) <= 2 * (x * Pow2(66)) + PRECISION * Pow2(j)
    ensures 2 * (x * Pow2(66)) <= 2 * (PRECISION * (m * Pow2(j))) + PRECISION * Pow2(j)
  {
    Pow2Values();
    Pow2Add(j, 66 - j);
    Pow2Add(52, j);
    Pow2Add(53, j);
    assert Pow2(j + 1) == 2 * Pow2(j);
    assert Pow2(53) == 2 * Pow2(52);
    SignificandArith(x, x * Pow2(66 - j), m, Pow2(j), Pow2(66 - j), Pow2(52));
    assert Pow2(53 + j) == 2 * (Pow2(52) * Pow2(j));
  }

  /** With `p = 2^j`, `q = 2^(66 - j)` and `t = 2^52`: a value `n = x * q`
      of the binade has a rounded significand in `[t, 2t]`, and scaling
      the half-unit bound by `p` gives the bound on `m * p`. */
  lemma SignificandArith(x: int, n: int, m: int, p: int, q: int, t: int)
    requires x >= 1 && p >= 1 && q >= 1 && t >= 1
    requires p * q == 16384 * t && n == x * q
    requires PRECISION * p <= x * 16384 < PRECISION * (2 * p)
    requires 2 * (m * PRECISION) <= 2 * n + PRECISION
    requires 2 * n <= 2 * (m * PRECISION) + PRECISION
    ensures t * p <= m * p <= 2 * (t * p)
    ensures 2 * (PRECISION * (m * p)) <= 2 * (x * (16384 * t)) + PRECISION * p
    ensures 2 * (x * (16384 * t)) <= 2 * (PRECISION * (m * p)) + PRECISION * p
  {
    MulLeft(PRECISION * p, x * 16384, q);
    MulStrict(x * 16384, PRECISION * (2 * p), q);
    assert (x * 16384) * q == 16384 * n;
    assert (PRECISION * p) * q == 16384 * (PRECISION * t);
    assert (PRECISION * (2 * p)) * q == 16384 * (PRECISION * (2 * t));
    assert PRECISION * t <= n < PRECISION * (2 * t);
    assert t <= m <= 2 * t;
    MulLeft(t, m, p);
    MulLeft(m, 2 * t, p);
    ScaleHalfUnit(x, n, m, p, q, t);
  }

  lemma ScaleHalfUnit(x: int, n: int, m: int, p: int, q: int, t: int)
    requires p >= 1 && p * q == 16384 * t && n == x * q
    requires 2 * (m * PRECISION) <= 2 * n + PRECISION
    requires 2 * n <= 2 * (m * PRECISION) + PRECISION
    ensures 2 * (PRECISION * (m * p)) <= 2 * (x * (16384 * t)) + PRECISION * p
    ensures 2 * (x * (16384 * t)) <= 2 * (PRECISION * (m * p)) + PRECISION * p
  {
    assert n * p == x * (16384 * t);
    MulLeft(2 * (m * PRECISION), 2 * n + PRECISION, p);
    MulLeft(2 * n, 2 * (m * PRECISION) + PRECISION, p);
  }

  lemma BinadeMonotone(x: nat, y: nat)
    requires 1 <= x <= y < SAFE_LIMIT
    ensures Binade(x) <= Binade(y)
  {
    var jx, jy := Binade(x), Binade(y);
    if jx > jy {
      Pow2Monotone(jy + 1, jx);
    }
  }

  /** Conversion keeps the order: a larger quotient never becomes a
      smaller number. */
  lemma RatioAsNumberMonotone(x: nat, y: nat)
    requires x <= y < SAFE_LIMIT
    ensures RatioAsNumber(x) <= RatioAsNumber(y)
  {
    if x >= 1 {
      var jx, jy := Binade(x), Binade(y);
      BinadeMonotone(x, y);
      if jx == jy {
        SameBinadeMonotone(x, y);
      } else {
        Pow2Monotone(53 + jx, 52 + jy);
      }
    }
  }

  lemma SameBinadeMonotone(x: nat, y: nat)
    requires 1 <= x <= y < SAFE_LIMIT && Binade(x) == Binade(y)
    ensures RatioAsNumber(x) <= RatioAsNumber(y)
  {
    var j := Binade(x);
    var q := Pow2(66 - j);
    var mx, my := RoundHalfEven(x * q), RoundHalfEven(y * q);
    assert RatioAsNumber(x) == mx * Pow2(j);
    assert RatioAsNumber(y) == my * Pow2(j);
    MulLeft(x, y, q);
    RoundHalfEvenMonotone(x * q, y * q);
    MulLeft(mx, my, Pow2(j));
  }

  /** Below `10000 * 2^39` distinct four-decimal quotients are distinct
      numbers. */
  lemma RatioAsNumberExactBelow(x: nat, y: nat)
    requires x < y < EXACT_LIMIT
    ensures RatioAsNumber(x) < RatioAsNumber(y)
  {
    Pow2Values();
    var jy := Binade(y);
    if jy > 52 {
      Pow2Monotone(53, jy);
    }
    Pow2Monotone(jy, 52);
    Pow2Monotone(52, 52 + jy);
    if x >= 1 {
      var jx := Binade(x);
      BinadeMonotone(x, y);
      Pow2Monotone(jx, 52);
      ExactArith(x, y, RatioAsNumber(x), RatioAsNumber(y), Pow2(jx), Pow2(jy), Pow2(52));
    }
  }

  /** Two quotients a unit apart, each rounded within half a unit in the
      last place of at most `2^52 / 2^66`, cannot meet. */
  lemma ExactArith(x: int, y: int, vx: int, vy: int, px: int, py: int, t: int)
    requires x + 1 <= y && t >= 1 && px <= t && py <= t
    requires 2 * (PRECISION * vx) <= 2 * (x * (16384 * t)) + PRECISION * px
    requires 2 * (y * (16384 * t)) <= 2 * (PRECISION * vy) + PRECISION * py
    ensures vx < vy
  {
    MulLeft(x + 1, y, 16384 * t);
  }

  /** Just above `10000 * 2^39` two different quotients share a number. */
  lemma RatioAsNumberCollides()
    ensures 5497558138880002 < 5497558138880003 < SAFE_LIMIT
    ensures RatioAsNumber(5497558138880002) == RatioAsNumber(5497558138880003)
  {
    Pow2Values();
    var x, y := 5497558138880002, 5497558138880003;
    Log2Unique(x * 16384 / PRECISION, 53);
    Log2Unique(y * 16384 / PRECISION, 53);
    assert Pow2(13) == 8192;
    assert RoundHalfEven(x * Pow2(13)) == 4503599627370498;
    assert RoundHalfEven(y * Pow2(13)) == 4503599627370498;
  }

  lemma Log2Unique(n: nat, j: nat)
    requires Pow2(j) <= n < Pow2(j + 1)
    ensures Log2(n) == j
  {
    var r := Log2(n);
    if r < j {
      Pow2Monotone(r + 1, j);
    } else if r > j {
      Pow2Monotone(j + 1, r);
    }
  }
}

=== FILE: legacy_utils.dfy ===
/** The older copy of the solver utilities. Its `addressSortOrder`,
    `getAmountOut` and `getAmountIn` are the same code as the newer copy
    and are modelled once, in `Addresses` and `AmmQuote`; what differs is
    `tradeDirection`, which compares reserve ratios scaled to integers and
    answers with a boolean. */
module LegacyUtils {

  import opened Outcomes
  import opened IntMath
  import opened AmmQuote
  import opened JsNumber
  import Arbitrage

  /** `floor(num * 10000 / den)`, converted to a JavaScript number. */
  function ScaledRatio(num: nat, den: nat): (r: Result<int, QuoteError>)
    ensures den == 0 <==> r == Err(DivisionByZero)
    ensures r.Ok? ==> 0 <= r.value < SAFE_LIMIT
    ensures r.Ok? ==> r.value * den <= num * PRECISION < (r.value + 1) * den
    ensures r == Err(NumericOverflow) ==> SAFE_LIMIT * den <= num * PRECISION
    ensures den > 0 ==> (r.Ok? <==> num * PRECISION < SAFE_LIMIT * den)
    ensures den > 0 && r.Err? ==> r == Err(NumericOverflow)
  {
    if den == 0 then Err(DivisionByZero)
    else
      var scaled := num * PRECISION / den;
      DivBounds(num * PRECISION, den);
      if scaled >= SAFE_LIMIT then
        MulLeft(SAFE_LIMIT, scaled, den);
        Err(NumericOverflow)
      else
        MulLeft(scaled + 1, SAFE_LIMIT, den);
        Ok(scaled)
  }

  /** `tradeDirection` of the older utilities: `true` when venue B's
      ratio `B1/B0` is below venue A's `A1/A0`, `false` when above, and an
      error when the two are equal. Each ratio is the four-decimal floor
      turned into a number and divided by 10000, so two different floors
      can meet in one number. */
  function LegacyTradeDirection(a0: nat, a1: nat, b0: nat, b1: nat): (r: Result<bool, QuoteError>)
    ensures r.Ok? <==>
      && ScaledRatio(a1, a0).Ok? && ScaledRatio(b1, b0).Ok?
      && RatioAsNumber(ScaledRatio(a1, a0).value) != RatioAsNumber(ScaledRatio(b1, b0).value)
    ensures r == Ok(true) ==> ScaledRatio(b1, b0).value < ScaledRatio(a1, a0).value
    ensures r == Ok(false) ==> ScaledRatio(b1, b0).value > ScaledRatio(a1, a0).value
    ensures
      (&& ScaledRatio(a1, a0).Ok? && ScaledRatio(b1, b0).Ok?
       && ScaledRatio(a1, a0).value < EXACT_LIMIT && ScaledRatio(b1, b0).value < EXACT_LIMIT)
      ==> (r.Ok? <==> ScaledRatio(a1, a0) != ScaledRatio(b1, b0))
    ensures a0 == 0 ==> r == Err(DivisionByZero)
  {
    var aRatio :- ScaledRatio(a1, a0);
    var bRatio :- ScaledRatio(b1, b0);
    var aNumber, bNumber := RatioAsNumber(aRatio), RatioAsNumber(bRatio);
    NumbersOrderRatios(aRatio, bRatio);
    if bNumber < aNumber then Ok(true)
    else if bNumber > aNumber then Ok(false)
    else Err(RatiosEqual)
  }

  /** Numbers of two scaled ratios are ordered as the ratios are, and
      differ whenever the ratios do below the exact range. */
  lemma NumbersOrderRatios(a: nat, b: nat)
    requires a < SAFE_LIMIT && b < SAFE_LIMIT
    ensures RatioAsNumber(b) < RatioAsNumber(a) ==> b < a
    ensures RatioAsNumber(b) > RatioAsNumber(a) ==> b > a
    ensures a < EXACT_LIMIT && b < EXACT_LIMIT && a != b ==> RatioAsNumber(a) != RatioAsNumber(b)
  {
    if a <= b {
      RatioAsNumberMonotone(a, b);
    } else {
      RatioAsNumberMonotone(b, a);
    }
    if a < EXACT_LIMIT && b < EXACT_LIMIT {
      if a < b {
        RatioAsNumberExactBelow(a, b);
      } else if b < a {
        RatioAsNumberExactBelow(b, a);
      }
    }
  }

  /** Finding the limit of the comparison: just above `10000 * 2^39` two
      venues whose ratios differ are reported equal. */
  lemma LegacyTradeDirectionCollides()
    ensures 5497558138880002 * 10000 < 5497558138880003 * 10000
    ensures ScaledRatio(5497558138880003, 10000) != ScaledRatio(5497558138880002, 10000)
    ensures LegacyTradeDirection(10000, 5497558138880003, 10000, 5497558138880002) == Err(RatiosEqual)
  {
    assert ScaledRatio(5497558138880003, 10000) == Ok(5497558138880003);
    assert ScaledRatio(5497558138880002, 10000) == Ok(5497558138880002);
    RatioAsNumberCollides();
  }

  /** Comparing floors of the scaled ratios never contradicts the exact
      comparison of `B1/B0` with `A1/A0`. */
  lemma LegacyTradeDirectionSound(a0: nat, a1: nat, b0: nat, b1: nat)
    requires LegacyTradeDirection(a0, a1, b0, b1).Ok?
    ensures LegacyTradeDirection(a0, a1, b0, b1).value ==> b1 * a0 < a1 * b0
    ensures !LegacyTradeDirection(a0, a1, b0, b1).value ==> b1 * a0 > a1 * b0
  {
    var aR, bR := ScaledRatio(a1, a0).value, ScaledRatio(b1, b0).value;
    if bR < aR {
      FloorsOrdered(b1, b0, bR, a1, a0, aR);
    } else {
      FloorsOrdered(a1, a0, aR, b1, b0, bR);
    }
  }

  /** If `floor(P x / y) < floor(P u / v)` then `x / y < u / v`. */
  lemma FloorsOrdered(x: nat, y: nat, fx: int, u: nat, v: nat, fu: int)
    requires y > 0 && v > 0
    requires x * PRECISION < (fx + 1) * y
    requires fu * v <= u * PRECISION
    requires fx < fu
    ensures x * v < u * y
  {
    MulLeft(fx + 1, fu, y);
    MulStrict(x * PRECISION, (fx + 1) * y, v);
    MulLeft(fu * v, u * PRECISION, y);
    assert v * (fu * y) == y * (fu * v);
    assert PRECISION * (x * v) < PRECISION * (u * y);
  }

  /** Equal exact ratios always raise the "equal ratios" error. */
  lemma LegacyTradeDirectionEqualRatios(a0: nat, a1: nat, b0: nat, b1: nat)
    requires a0 > 0 && b0 > 0 && b1 * a0 == a1 * b0
    requires ScaledRatio(a1, a0).Ok? && ScaledRatio(b1, b0).Ok?
    ensures LegacyTradeDirection(a0, a1, b0, b1) == Err(RatiosEqual)
  {
    var aR, bR := ScaledRatio(a1, a0).value, ScaledRatio(b1, b0).value;
    if bR < aR {
      FloorsOrdered(b1, b0, bR, a1, a0, aR);
    } else if aR < bR {
      FloorsOrdered(a1, a0, aR, b1, b0, bR);
    }
  }

  /** With the arguments read as (A base, A alt, B base, B alt), `true`
      is the newer solver's ALT and `false` its BASE. */
  lemma LegacyAgreesWithTradeDirection(a0: nat, a1: nat, b0: nat, b1: nat)
    requires a0 > 0 && a1 > 0 && b0 > 0 && b1 > 0
    requires LegacyTradeDirection(a0, a1, b0, b1).Ok?
    ensures LegacyTradeDirection(a0, a1, b0, b1) == Ok(true) ==> Arbitrage.TradeDirection(a0, a1, b0, b1) == Ok(Arbitrage.ALT)
    ensures LegacyTradeDirection(a0, a1, b0, b1) == Ok(false) ==> Arbitrage.TradeDirection(a0, a1, b0, b1) == Ok(Arbitrage.BASE)
  {
    var d := LegacyTradeDirection(a0, a1, b0, b1).value;
    LegacyTradeDirectionSound(a0, a1, b0, b1);
    if d {
      assert b1 * a0 < a1 * b0;
    } else {
      assert b1 * a0 > a1 * b0;
    }
  }

  /** The helper tests of the older utilities. */
  lemma LegacyTradeDirectionVectors()
    ensures LegacyTradeDirection(1000, 1000, 1000, 950) == Ok(true)
    ensures LegacyTradeDirection(1000, 1000, 1000, 10000) == Ok(false)
    ensures LegacyTradeDirection(1000, 1000, 1000, 1000) == Err(RatiosEqual)
  {
  }
}

=== FILE: outcomes.dfy ===
/** Failure-compatible result types shared by every module of the model.
    The source signals failure by throwing; the model returns an `Err`. */
module Outcomes {

  datatype Option<+T> = None | Some(value: T)

  datatype Result<+T, +E> = Ok(value: T) | Err(error: E) {

    predicate IsFailure() {
      Err?
    }

    function PropagateFailure<U>(): Result<U, E>
      requires Err?
    {
      Err(error)
    }

    function Extract(): T
      requires Ok?
    {
      value
    }
  }
}

=== FILE: registry.dfy ===
/** The market registry (`PairsModel`): three tables of factories, tokens
    and pairs, each keyed by a lower-cased contract address, with the
    UNIQUE, NOT NULL and FOREIGN KEY constraints of its schema and the
    "common pairs" query that feeds the arbitrage search. */
module Registry {

  import opened Outcomes
  import opened Addresses

  /** A row of `factories`; `fee` is in thousandths. */
  datatype FactoryRow = FactoryRow(name: string, address: string, router: string, fee: int)

  /** A row of `tokens`; `isBase` is the `is_base` flag, 0 on insertion. */
  datatype TokenRow = TokenRow(decimals: int, name: string, symbol: string, address: string, isBase: bool)

  /** A row of `pairs`. */
  datatype PairRow = PairRow(index: int, decimals: int, token0: string, token1: string, factory: string, address: string)

  /** What callers hand to `addToken` and `addPair`; a pair's index may be
      missing. */
  datatype TokenInfo = TokenInfo(decimals: int, name: string, symbol: string, address: string)
  datatype PairInfo = PairInfo(index: Option<int>, decimals: int, token0: string, token1: string, factory: string, address: string)

  /** The constraint a refused insertion violated. */
  datatype Constraint = NotNull | Unique | ForeignKey

  datatype Store = Store(factories: map<string, FactoryRow>, tokens: map<string, TokenRow>, pairs: map<string, PairRow>)

  const EmptyStore: Store := Store(map[], map[], map[])

  /** A stored pair row: keyed by its own address and referring to a
      stored factory and two stored tokens. */
  predicate PairRowOk(s: Store, k: string)
    requires k in s.pairs
  {
    var p := s.pairs[k];
    p.address == k && IsLower(k) && p.factory in s.factories && p.token0 in s.tokens && p.token1 in s.tokens
  }

  /** The schema's constraints, and lower-case addresses throughout. */
  predicate Valid(s: Store)
  {
    && (forall k :: k in s.factories ==> s.factories[k].address == k && IsLower(k) && IsLower(s.factories[k].router))
    && (forall k, k' :: k in s.factories && k' in s.factories && k != k' ==>
          s.factories[k].name != s.factories[k'].name && s.factories[k].router != s.factories[k'].router)
    && (forall k :: k in s.tokens ==> s.tokens[k].address == k && IsLower(k))
    && (forall k :: k in s.pairs ==> PairRowOk(s, k))
  }

  lemma EmptyStoreValid()
    ensures Valid(EmptyStore)
  {
  }

  /** Would a factory row with these values break a UNIQUE constraint? */
  predicate FactoryConflict(s: Store, name: string, key: string, router: string)
  {
    key in s.factories || exists k :: k in s.factories && (s.factories[k].name == name || s.factories[k].router == router)
  }

  /** `addFactory`: INSERT OR IGNORE of the lower-cased addresses. */
  function AddFactory(s: Store, name: string, address: string, routerAddress: string, fee: int): (s': Store)
    ensures s'.tokens == s.tokens && s'.pairs == s.pairs
    ensures FactoryConflict(s, name, Lower(address), Lower(routerAddress)) ==> s' == s
    ensures !FactoryConflict(s, name, Lower(address), Lower(routerAddress)) ==>
      && s'.factories.Keys == s.factories.Keys + {Lower(address)}
      && s'.factories[Lower(address)] == FactoryRow(name, Lower(address), Lower(routerAddress), fee)
      && (forall k :: k in s.factories ==> s'.factories[k] == s.factories[k])
    ensures Valid(s) ==> Valid(s')
  {
    var key := Lower(address);
    var router := Lower(routerAddress);
    LowerIsLower(address);
    LowerIsLower(routerAddress);
    if FactoryConflict(s, name, key, router) then s
    else
      InsertFactoryKeepsValid(s, FactoryRow(name, key, router, fee));
      Store(s.factories[key := FactoryRow(name, key, router, fee)], s.tokens, s.pairs)
  }

  lemma InsertFactoryKeepsValid(s: Store, row: FactoryRow)
    requires IsLower(row.address) && IsLower(row.router)
    requires !FactoryConflict(s, row.name, row.address, row.router)
    ensures Valid(s) ==> Valid(Store(s.factories[row.address := row], s.tokens, s.pairs))
  {
    if Valid(s) {
      var f := s.factories[row.address := row];
      var s' := Store(f, s.tokens, s.pairs);
      forall k, k' | k in f && k' in f && k != k'
        ensures f[k].name != f[k'].name && f[k].router != f[k'].router
      {
        if k == row.address {
          assert k' in s.factories;
        } else if k' == row.address {
          assert k in s.factories;
        }
      }
      forall k | k in s'.pairs
        ensures PairRowOk(s', k)
      {
        assert PairRowOk(s, k);
      }
    }
  }

  /** `getFactory`: the row whose address equals the folded argument,
      if any. */
  function GetFactory(s: Store, address: string): (r: Option<FactoryRow>)
    ensures r.Some? ==> r.value in s.factories.Values
    ensures Valid(s) ==> (r.Some? <==> exists row :: row in s.factories.Values && row.address == Lower(address))
    ensures Valid(s) && r.Some? ==> r.value.address == Lower(address)
  {
    if Lower(address) in s.factories then Some(s.factories[Lower(address)]) else None
  }

  /** `getFactories`: every stored factory row, each the one stored under
      its own address. */
  function GetFactories(s: Store): (r: set<FactoryRow>)
    ensures forall k :: k in s.factories ==> s.factories[k] in r
    ensures Valid(s) ==> forall row :: row in r ==> row.address in s.factories && s.factories[row.address] == row
  {
    s.factories.Values
  }

  /** The list and the lookup agree: a row is listed exactly when looking
      up its address finds it. */
  lemma GetFactoriesAgreesWithGet(s: Store, row: FactoryRow)
    requires Valid(s)
    ensures row in GetFactories(s) <==> GetFactory(s, row.address) == Some(row)
  {
    if row in GetFactories(s) {
      LowerFixesLower(row.address);
    }
  }

  /** After a factory is added, it can be found under any spelling of its
      address, with both addresses folded. */
  lemma AddFactoryThenGet(s: Store, name: string, address: string, routerAddress: string, fee: int, query: string)
    requires !FactoryConflict(s, name, Lower(address), Lower(routerAddress))
    requires Lower(query) == Lower(address)
    ensures GetFactory(AddFactory(s, name, address, routerAddress, fee), query)
      == Some(FactoryRow(name, Lower(address), Lower(routerAddress), fee))
    ensures FactoryRow(name, Lower(address), Lower(routerAddress), fee) in GetFactories(AddFactory(s, name, address, routerAddress, fee))
  {
  }

  /** `addToken`: INSERT OR IGNORE keyed by the folded address. */
  function AddToken(s: Store, info: TokenInfo): (s': Store)
    ensures s'.factories == s.factories && s'.pairs == s.pairs
    ensures s'.tokens.Keys == s.tokens.Keys + {Lower(info.address)}
    ensures forall k :: k in s.tokens ==> s'.tokens[k] == s.tokens[k]
    ensures Lower(info.address) !in s.tokens ==>
      s'.tokens[Lower(info.address)] == TokenRow(info.decimals, info.name, info.symbol, Lower(info.address), false)
    ensures Valid(s) ==> Valid(s')
  {
    var key := Lower(info.address);
    LowerIsLower(info.address);
    if key in s.tokens then s
    else Store(s.factories, s.tokens[key := TokenRow(info.decimals, info.name, info.symbol, key, false)], s.pairs)
  }

  /** Adding a token a second time, under any spelling, changes nothing. */
  lemma AddTokenIdempotent(s: Store, info: TokenInfo, again: TokenInfo)
    requires Lower(again.address) == Lower(info.address)
    ensures AddToken(AddToken(s, info), again) == AddToken(s, info)
  {
  }

  /** `getTokenFromAddress`: the row whose address equals the folded
      argument, if any. */
  function GetTokenFromAddress(s: Store, address: string): (r: Option<TokenRow>)
    ensures r.Some? ==> r.value in s.tokens.Values
    ensures Valid(s) ==> (r.Some? <==> exists row :: row in s.tokens.Values && row.address == Lower(address))
    ensures Valid(s) && r.Some? ==> r.value.address == Lower(address)
  {
    if Lower(address) in s.tokens then Some(s.tokens[Lower(address)]) else None
  }

  /** `getTokenAddressList`: the address column of `tokens`; every entry
      is lower case and finds its own row. */
  function GetTokenAddressList(s: Store): (r: set<string>)
    ensures Valid(s) ==> forall a :: a in r <==> exists row :: row in s.tokens.Values && row.address == a
    ensures Valid(s) ==> forall a :: a in r ==>
      IsLower(a) && GetTokenFromAddress(s, a).Some? && GetTokenFromAddress(s, a).value.address == a
  {
    TokenKeysFolded(s);
    s.tokens.Keys
  }

  /** In a valid store folding a token key gives the key back. */
  lemma TokenKeysFolded(s: Store)
    ensures Valid(s) ==> forall a :: a in s.tokens ==> Lower(a) == a
  {
    forall a | a in s.tokens && Valid(s)
      ensures Lower(a) == a
    {
      LowerFixesLower(a);
    }
  }

  /** After `addToken`, the token is found under any spelling of its
      address and listed under the folded one. */
  lemma AddTokenThenGet(s: Store, info: TokenInfo, query: string)
    requires Lower(query) == Lower(info.address)
    ensures GetTokenFromAddress(AddToken(s, info), query).Some?
    ensures Lower(info.address) in GetTokenAddressList(AddToken(s, info))
    ensures GetTokenFromAddress(s, query).None? ==>
      GetTokenFromAddress(AddToken(s, info), query) == Some(TokenRow(info.decimals, info.name, info.symbol, Lower(info.address), false))
    ensures GetTokenFromAddress(s, query).Some? ==> GetTokenFromAddress(AddToken(s, info), query) == GetTokenFromAddress(s, query)
  {
  }

  /** The row `addPair` would write: every address folded. */
  function PairRowOf(info: PairInfo, index: int): PairRow
  {
    PairRow(index, info.decimals, Lower(info.token0), Lower(info.token1), Lower(info.factory), Lower(info.address))
  }

  /** `addPair`: a plain INSERT, so a missing index, a duplicate address or
      an unknown factory or token is an error and leaves the store as it
      was. */
  function AddPair(s: Store, info: PairInfo): (r: Result<Store, Constraint>)
    ensures info.index.None? ==> r == Err(NotNull)
    ensures info.index.Some? ==> (r == Err(Unique) <==> Lower(info.address) in s.pairs)
    ensures r.Ok? <==>
      && info.index.Some?
      && Lower(info.address) !in s.pairs
      && Lower(info.factory) in s.factories
      && Lower(info.token0) in s.tokens
      && Lower(info.token1) in s.tokens
    ensures r.Ok? ==>
      && r.value.factories == s.factories && r.value.tokens == s.tokens
      && r.value.pairs.Keys == s.pairs.Keys + {Lower(info.address)}
      && r.value.pairs[Lower(info.address)] == PairRowOf(info, info.index.value)
      && (forall k :: k in s.pairs ==> r.value.pairs[k] == s.pairs[k])
    ensures r.Ok? && Valid(s) ==> Valid(r.value)
  {
    if info.index.None? then Err(NotNull)
    else
      var key := Lower(info.address);
      if key in s.pairs then Err(Unique)
      else
        var row := PairRowOf(info, info.index.value);
        if row.factory !in s.factories || row.token0 !in s.tokens || row.token1 !in s.tokens then Err(ForeignKey)
        else
          LowerIsLower(info.address);
          Ok(Store(s.factories, s.tokens, s.pairs[key := row]))
  }

  /** `getPairFromAddress`: the row whose address equals the folded
      argument, if any. */
  function GetPairFromAddress(s: Store, address: string): (r: Option<PairRow>)
    ensures r.Some? ==> r.value in s.pairs.Values
    ensures Valid(s) ==> (r.Some? <==> exists row :: row in s.pairs.Values && row.address == Lower(address))
    ensures Valid(s) && r.Some? ==> r.value.address == Lower(address)
  {
    if Lower(address) in s.pairs then Some(s.pairs[Lower(address)]) else None
  }

  /** `getPairIndexAddressList`: (address, pair index) of every pair stored
      for the folded factory address. */
  function GetPairIndexAddressList(s: Store, factoryAddress: string): (r: set<(string, int)>)
    ensures forall a, i :: (a, i) in r ==> a in s.pairs && s.pairs[a].index == i && s.pairs[a].factory == Lower(factoryAddress)
    ensures forall a :: a in s.pairs && s.pairs[a].factory == Lower(factoryAddress) ==> (a, s.pairs[a].index) in r
  {
    set k | k in s.pairs && s.pairs[k].factory == Lower(factoryAddress) :: (k, s.pairs[k].index)
  }

  /** After `addPair` succeeds, the pair is found under any spelling of its
      address, and its factory's index list gained exactly that pair. */
  lemma AddPairThenGet(s: Store, info: PairInfo, query: string)
    requires AddPair(s, info).Ok?
    requires Lower(query) == Lower(info.address)
    ensures var s' := AddPair(s, info).value;
      && GetPairFromAddress(s', query) == Some(PairRowOf(info, info.index.value))
      && GetPairIndexAddressList(s', info.factory) ==
           GetPairIndexAddressList(s, info.factory) + {(Lower(info.address), info.index.value)}
  {
    var s' := AddPair(s, info).value;
    var key := Lower(info.address);
    LowerIsLower(info.factory);
    var before := GetPairIndexAddressList(s, info.factory);
    var after := GetPairIndexAddressList(s', info.factory);
    forall e | e in after
      ensures e in before + {(key, info.index.value)}
    {
      if e.0 != key {
        assert (e.0, s.pairs[e.0].index) in before;
      }
    }
    forall e | e in before + {(key, info.index.value)}
      ensures e in after
    {
      if e.0 != key {
        assert e.0 in s'.pairs && s'.pairs[e.0] == s.pairs[e.0];
      } else {
        assert s'.pairs[key].factory == Lower(info.factory);
      }
    }
  }

  // ---------------------------------------------------------------------
  // getCommonPairs

  /** The grouping key `token0 || ';' || token1`. */
  function Slug(p: PairRow): string
  {
    p.token0 + ";" + p.token1
  }

  predicate HasBase(p: PairRow, base: set<string>)
  {
    p.token0 in base || p.token1 in base
  }

  /** The rows the inner query counts for a slug: those with a base token. */
  function Counted(rows: set<PairRow>, base: set<string>, slug: string): set<PairRow>
  {
    set p | p in rows && HasBase(p, base) && Slug(p) == slug
  }

  /** Every row with the given slug. */
  function WithSlug(rows: set<PairRow>, slug: string): set<PairRow>
  {
    set p | p in rows && Slug(p) == slug
  }

  lemma SubsetCard<T>(a: set<T>, b: set<T>)
    requires a <= b
    ensures |a| <= |b|
  {
    assert b == a + (b - a);
  }

  /** `getCommonPairs` over given rows and base tokens: rows grouped by
      slug, keeping a slug when more than one row with a base token
      carries it (`count(slug) > 1` counts rows, not factories). */
  function CommonPairs(rows: set<PairRow>, base: set<string>): (r: map<string, set<PairRow>>)
    ensures forall k :: k in r ==> forall p :: p in r[k] ==> p in rows && Slug(p) == k
    ensures forall k :: k in r ==> |r[k]| >= 2
    ensures forall k :: k in r ==> exists p :: p in r[k] && HasBase(p, base)
    ensures forall p :: p in rows && |Counted(rows, base, Slug(p))| > 1 ==> Slug(p) in r && p in r[Slug(p)]
  {
    var slugs := set p | p in rows && HasBase(p, base) :: Slug(p);
    var r := map k | k in slugs && |Counted(rows, base, k)| > 1 :: WithSlug(rows, k);
    assert forall k :: k in r ==> |r[k]| >= 2 && exists p :: p in r[k] && HasBase(p, base) by {
      forall k | k in r
        ensures |r[k]| >= 2 && exists p :: p in r[k] && HasBase(p, base)
      {
        SubsetCard(Counted(rows, base, k), r[k]);
        var p :| p in Counted(rows, base, k);
      }
    }
    r
  }

  /** Each row lands in at most one group: the one named by its slug. */
  lemma CommonPairsDisjoint(rows: set<PairRow>, base: set<string>, p: PairRow, k: string, k': string)
    requires k in CommonPairs(rows, base) && k' in CommonPairs(rows, base)
    requires p in CommonPairs(rows, base)[k] && p in CommonPairs(rows, base)[k']
    ensures k == k'
  {
  }

  /** The tokens flagged `is_base`. */
  function BaseTokens(s: Store): set<string>
  {
    set k | k in s.tokens && s.tokens[k].isBase
  }

  /** `getCommonPairs` on the store: groups of stored pairs sharing a
      slug, each of at least two rows, one of them holding a token flagged
      `is_base`. */
  function GetCommonPairs(s: Store): (r: map<string, set<PairRow>>)
    ensures forall k :: k in r ==> forall p :: p in r[k] ==> p in s.pairs.Values && Slug(p) == k
    ensures forall k :: k in r ==> |r[k]| >= 2
    ensures forall k :: k in r ==>
      exists p :: p in r[k] && ((p.token0 in s.tokens && s.tokens[p.token0].isBase) || (p.token1 in s.tokens && s.tokens[p.token1].isBase))
    ensures forall p :: p in s.pairs.Values && |Counted(s.pairs.Values, BaseTokens(s), Slug(p))| > 1 ==>
      Slug(p) in r && p in r[Slug(p)]
  {
    CommonPairs(s.pairs.Values, BaseTokens(s))
  }

  /** Two pairs of the same tokens under one factory already form a group:
      the query counts rows, not distinct factories. */
  lemma CommonPairsCountsRows()
    ensures var p1 := PairRow(0, 18, "0xa", "0xb", "0xf", "0x1");
      var p2 := PairRow(1, 18, "0xa", "0xb", "0xf", "0x2");
      var r := CommonPairs({p1, p2}, {"0xa"});
      && p1.factory == p2.factory
      && "0xa;0xb" in r && r["0xa;0xb"] == {p1, p2}
  {
    var p1 := PairRow(0, 18, "0xa", "0xb", "0xf", "0x1");
    var p2 := PairRow(1, 18, "0xa", "0xb", "0xf", "0x2");
    assert Slug(p1) == "0xa;0xb" && Slug(p2) == "0xa;0xb";
    assert Counted({p1, p2}, {"0xa"}, "0xa;0xb") == {p1, p2};
    assert |{p1, p2}| == 2;
  }
}
